=== FILE: README.md ===
# Oblivion mod file case fixer — a Dafny model of its analysis core

The tool compares a mod's data folder with the Oblivion data folder. The
test suite (test/oblivion-file-analyzer.test.ts) asserts that it sorts every
mod file into one of two lists:

- A **problem path** gets a **corrected path** in Oblivion's casing. This
  happens in two cases:
  - its relative path equals an Oblivion file's path up to letter case but
    not exactly;
  - it has no such match, but its leading directories match an Oblivion
    path's up to case, and the correction differs from its current path.
    The correction takes the deepest such match's casing for the matched
    segments and keeps the mod's own segments after them.
- Every other mod file is **independent**.

The worker as written departs from this classification in two places. A
file whose exact match has identical casing goes to neither list, and a
partial match whose correction equals the current path is reported as a
problem. Both are listed under "## Findings".

The fixer then copies every mod file into `<mod data folder>/OMFCF_FIXED`.
A problem path goes under its corrected relative path, and an independent
path under its own.

This project models that core as pure Dafny functions and proves properties
about them:

- `wrappers.dfy` (`Wrappers`) provides the `Option` type. `None` stands for
  JavaScript's `undefined`.
- `text.dfy` (`Text`) holds the string primitives the source relies on:
  - `toLowerCase`, limited to ASCII;
  - `split('/')`, `filter(Boolean)` and `join('/')`;
  - `trim()`, with JavaScript's whitespace set;
  - `indexOf`, and the first-occurrence `replace(string, '')`.
- `model.dfy` (`PathModel`) holds the records of `model.ts`:
  - `Path`, with its case-preserved and lower-cased fields;
  - `AnalyzedPath`;
  - the pair of result lists, `AnalysisResult`.
- `matcher.dfy` (`Matcher`) is the worker's per-path decision. It looks for
  an exact case-insensitive match first. Failing that, it takes the deepest
  partial match by leading segments, the earliest one among equals. From
  that match it synthesizes the corrected relative path. It then assembles
  one worker's result lists.
- `analyzer.dfy` (`Analyzer`) holds the coordinator's pure parts:
  - the number of workers, and the contiguous chunk each worker receives;
  - the merge of the partial results;
  - the construction of `Path` records from a directory walk;
  - the copy jobs of the fixer.

  The source runs its workers concurrently. Here they become a sequential
  map over the chunks, followed by a fold in chunk order.
- `args.dfy` (`Args`, `ArgsAnalysis`) models `getArgs`:
  - `treatPathString` trims the value, then drops trailing `/`.
  - The unary `+` converts `--maxAnalysisWorkers`, and NaN or 0 falls back
    to the default.
  - Missing folder arguments produce an exit message.
  - A final lemma connects the worker limit with the analysis.

The worker's text and the test suite disagree in two places, listed under
Findings. `Matcher.LiteralClassify` is the worker as written.
`Matcher.Classify` is the behaviour the test suite asserts, and the rest of
the model uses it.

Take a mod file whose directory matches an Oblivion file's directory but
whose name matches no Oblivion file. The code gives it no special
treatment: the deepest partial match decides, as for any other file. When
the directory's casing already agrees, the correction is the file's own
path. Under `Classify`, the test-asserted behaviour
(test/oblivion-file-analyzer.test.ts:232-276), such a file is independent.
The worker as written reports it as a problem whose correction changes
nothing (see Findings). When the casing differs, both correct the
directory's casing. No rule that ranks same-directory candidates above
deeper matches is modelled, because the code has none.

## Model

| member | source | states |
|---|---|---|
| Matcher.FirstExact | analyze-paths.worker.ts:11-13 | The result is the first Oblivion path whose normalized relative path equals the mod's. It is absent exactly when no Oblivion path has an equal normalized relative path. |
| Matcher.MatchLevel | analyze-paths.worker.ts:38-52 | The match level is a common prefix of the two normalized segment lists, no longer than either. It cannot be extended: the next segments differ or one list ends. |
| Matcher.MatchLevelUnique | analyze-paths.worker.ts:38-52 | Any common prefix that cannot be extended has exactly the length `MatchLevel` measures, so the level is the longest common prefix. |
| Matcher.ScoreReference | analyze-paths.worker.ts:31-60 | The `map` callback's loop stops at the first differing segment. The level it counts is the length of the longest common prefix. The path it assembles is `/` + the Oblivion path's first `level` real segments + `/` + the mod's remaining real segments. |
| Matcher.BestIndex | analyze-paths.worker.ts:62-71 | The winner has a positive level, no position has a higher one, and every earlier position has a strictly lower one. There is no winner exactly when every level is zero. |
| Matcher.BestIndexCharacterized | analyze-paths.worker.ts:62-71 | The scan selects position `i` if and only if `i` is the earliest position of maximal positive level. |
| Matcher.SortedHeadIsBest | analyze-paths.worker.ts:62-71 | Take any list that, like `filter(matchLevel > 0)` followed by a stable descending sort, holds every positive-level position with levels non-increasing and ties in list order. Its head `[0]` is the `BestIndex` winner, and the list is empty exactly when there is no winner. |
| Matcher.CorrectedPath | analyze-paths.worker.ts:17-26 | The corrected record lies under the mod data folder with the given relative path, and its normalized fields are the lower-cased real ones. |
| Matcher.LiteralClassify | analyze-paths.worker.ts:15-90 | The worker as written pushes a mod path to neither list exactly when its first exact match has identical casing. It pushes it as independent exactly when there is neither an exact match nor any positive-level partial match. Every correction it pushes is a well-formed record under the mod data folder. |
| Matcher.Classify | analyze-paths.worker.ts:15-90 | Given an exact match, the mod path is a problem if and only if that match's casing differs, and the correction is then the match's relative path. Without an exact match, take the correction built from the earliest maximal partial match: the path is a problem carrying that correction if and only if it differs from the existing path. With no positive level the path is independent. A problem never proposes the path the file already has. |
| Matcher.LiteralAgreesExceptDiscrepancies | analyze-paths.worker.ts:15-90 | The worker as written agrees with `Classify` if and only if there is neither a same-case exact match nor a no-op partial correction. A same-case exact match is pushed to no list. A no-op correction is reported as a problem. |
| Matcher.PartialCorrectionCaseOnly | analyze-paths.worker.ts:54-60 | For a well-formed, canonical mod path with a positive level, the synthesized correction lower-cases to the mod's own normalized relative path. The one exception is a match of every mod segment, where one trailing `/` is added. |
| Matcher.ClassifyChangesCaseOnly | analyze-paths.worker.ts:15-84 | A problem's corrected record is well-formed, and its normalized relative path is the mod's, possibly with one trailing `/`: a correction changes letter case only. |
| Matcher.LiteralLosesSameCase | analyze-paths.worker.ts:10-28 | The worker's `forEach` as written accounts for the chunk minus exactly the paths with a same-case exact match. With such a path present, fewer results than mod paths come back. |
| Matcher.ClassifyAll | analyze-paths.worker.ts:10-91 | One worker's run over its chunk has one entry per mod path: the two lists' lengths add up to the chunk's. That each path appears exactly once, in input order, is `Matcher.ClassifyAllContents`. |
| Matcher.ClassifyAllAppend | analyze-paths.worker.ts:10-91 | Classifying two consecutive slices and appending their lists equals classifying their concatenation. This is what makes chunking sound. |
| Matcher.ClassifyAllContents | analyze-paths.worker.ts:10-91 | The problem list holds exactly the problem-verdict mod paths, and the independent list exactly the others, each in input order. Together they are a permutation of the input. Every problem entry carries the correction `Classify` gives it, and no independent entry carries one. |
| PathModel.Concat | oblivion-file-analyzer.ts:57-58 | Appending a worker's lists to the shared ones adds their sizes. |
| Analyzer.NumWorkers | oblivion-file-analyzer.ts:151-153 | The worker count is at most the limit and at most the number of mod paths, and it equals one of the two. |
| Analyzer.Partition | oblivion-file-analyzer.ts:43-71 | There is one chunk per worker: `min(limit, n)` chunks when that is positive, and none otherwise. |
| Analyzer.PartitionShape | oblivion-file-analyzer.ts:43-71 | With a limit of at least one and at least one mod path, there are `min(limit, n)` chunks. Every chunk but the last is the slice `[c*i, c*i + c)` with `c = floor(n / w) >= 1`. The last chunk is the rest, of size `c + n % w`, and no chunk is smaller than `c` or larger than the last. |
| Analyzer.PartitionFlatten | oblivion-file-analyzer.ts:43-71 | With a limit of at least one, the chunks concatenated in worker order give back exactly the mod path list. |
| Analyzer.PartitionExamples | oblivion-file-analyzer.ts:66-71 | Ten paths over three workers give chunks of 3, 3 and 4, the leftover going to the last. Two paths with a limit of five give two chunks of one. |
| Analyzer.MergeIsSinglePass | oblivion-file-analyzer.ts:57-58 | Merging the workers' results in worker order equals classifying the concatenated chunks in one pass. |
| Analyzer.AnalyzePaths | oblivion-file-analyzer.ts:36-89 | The merged result equals one worker's pass over the chunks laid end to end. With no worker it is empty. |
| Analyzer.AnalyzeIsSinglePass | oblivion-file-analyzer.ts:36-89 | For any limit of at least one, `analyzePaths` returns what a single worker over the whole mod list returns. Every mod path is accounted for once. |
| Analyzer.AnalyzeEmpty | oblivion-file-analyzer.ts:40-44 | With no mod paths, no worker starts and the result is empty. |
| Analyzer.AnalyzeNonPositiveLimit | oblivion-file-analyzer.ts:40-44 | A limit below one starts no worker: the result is empty and every mod path is lost. |
| Analyzer.MakePath | oblivion-file-analyzer.ts:128-136 | The record keeps the walked path and its lower-cased form. When the walked path starts with the data folder, the relative path is the rest after the folder, and the record is well-formed. |
| Analyzer.MakePathUnderRoot | oblivion-file-analyzer.ts:128-136 | A walked path that continues after the data folder with `/` gives a record that lies under the folder. |
| Analyzer.InitPathsWellFormed | oblivion-file-analyzer.ts:123-138 | Every record built from a walk under the data folder is well-formed, and its real path is the data folder followed by its relative path. |
| Analyzer.FixJobs | oblivion-file-analyzer.ts:91-113 | The fixer starts one copy per entry of the result. |
| Analyzer.FixJobsShape | oblivion-file-analyzer.ts:91-113 | There is one copy per problem entry, then one per independent entry. A problem file is copied to `<modRoot>/OMFCF_FIXED/` plus its corrected relative path. An independent file is copied there under its own relative path. |
| Analyzer.FixJobsDestinations | oblivion-file-analyzer.ts:91-102 | An analysis result has a correction on every problem entry. The fixer therefore copies exactly one file per mod path, and never renders `undefined` into a destination. |
| Text.JoinSplit | analyze-paths.worker.ts:32-36 | Joining the pieces of `split('/')` with `/` gives back the string. |
| Text.SegmentsLower | analyze-paths.worker.ts:32-36 | The segments of a lower-cased path are the lower-cased segments of the path, and there are as many of them. |
| Text.TrimPadded | util.ts:63 | `trim()` recovers, from any whitespace padding, a core that neither starts nor ends with whitespace. |
| Text.IndexOf | oblivion-file-analyzer.ts:133 | The result is the first position where the pattern occurs. It is absent exactly when the pattern occurs nowhere. |
| Text.RemoveFirstPrefix | oblivion-file-analyzer.ts:133 | When the string starts with the pattern, `replace(pattern, '')` removes exactly that prefix. |
| Args.DropTrailingSeps | util.ts:64-66 | The result is a prefix of the input that does not end in `/`, and everything removed is `/`. |
| Args.TreatPath | util.ts:60-69 | An absent argument treats to "", and a result never ends in `/`. |
| Args.TreatPathSplits | util.ts:60-69 | The trimmed argument is the result followed by a run of `/` only, and the result does not end in `/`. |
| Args.TreatPathUnique | util.ts:60-69 | Conversely, any such split of the trimmed argument determines the result. |
| Args.TreatPathEmpty | util.ts:60-69 | An absent, blank or separators-only argument treats to "". |
| Args.TreatPathStripsPadding | test/util.test.ts:66-85 | Surrounding whitespace and trailing `/` are removed from any path that neither starts nor ends with whitespace or `/`. |
| Args.TreatPathKeepsInnerWhitespace | util.ts:60-69 | Whitespace before a trailing `/` survives ("x /" gives "x "), so treating a second time can change the result. |
| Args.ToNumber | util.ts:12 | A blank string converts to 0. An optionally signed decimal integer of magnitude at most 2^53 converts to its value. A string converts to NaN if and only if, once trimmed, it is non-blank and not a JavaScript numeric literal. Every other string is a numeric literal whose value is not tracked. |
| Args.ToNumberShowInt | util.ts:12 | An integer written in decimal converts back to itself when its magnitude is at most 2^53. Beyond that its value is not tracked. |
| Args.ParseWorkers | util.ts:12 | `+(flag ?? '')`: a given flag converts as its text does, and an absent one converts as the empty string does, to 0. |
| Args.DefaultedWorkers | util.ts:13-14 | NaN and 0 become the default, and every other value is kept, negative ones included. |
| Args.SafeWorkers | util.ts:13-14 | The corrected limit is always at least one. It is the given value when that is a positive count, and the default otherwise. |
| Args.SafeAgreesExceptNegative | util.ts:13-14 | The limit as written and the corrected one differ if and only if the value is a negative number. |
| Args.MissingRequired | util.ts:16-19 | A flag is named as missing if and only if its treated value is empty. The list has exactly one entry per empty folder and no others, and `oblivionDataFolder` comes first. |
| Args.GetArgs | util.ts:5-36 | For every input, `getArgs` exits if and only if a treated folder is empty, with the message for the missing flags, and the folders it returns are the treated ones; none of this depends on the worker flag. The worker limit is the converted flag with NaN and 0 replaced by the default. It is untracked exactly when the flag holds a numeric literal whose value `Args.ToNumber` does not track. |
| Args.WorkerLimitFromFlag | test/util.test.ts:38-64 | The worker limit is the default when the flag is absent or not a number. It is `n` when the flag is `n` written in decimal, for every count `n` up to 2^53. |
| Args.MissingMessages | util.ts:21-29 | The message names both flags as "oblivionDataFolder, modDataFolder" when both are missing, and otherwise the one that is missing. The example flag is the first missing one. |
| ArgsAnalysis.NegativeWorkersLoseEverything | util.ts:12-14 | A negative `--maxAnalysisWorkers` written in decimal (such as "-1") passes `getArgs` unchanged. An analysis with it returns an empty result, so every mod path is lost. |
| ArgsAnalysis.AnalyzeWithSafeWorkers | util.ts:13-14 | With the corrected limit and a positive default, the analysis equals the single-pass classification and accounts for every mod path. |

## Left out

- Concurrency is not modelled: the workers, their message passing, `waitFor` polling and the order in which workers finish. Partial results are merged in worker order. The source appends them in completion order, so the order of its lists across chunks can differ. What each chunk contributes is the same.
- File-system effects are left out: `walkSync`, `ensureFileSync`, `copy` and `Deno.exit`. The walk is a parameter (a list of walked paths), a copy is a `CopyJob` record, and the exit is the `exitError` field.
- `main.ts` and `console.util.ts` are left out. They hold the interactive flow, prompts and console output, which is I/O.
- `parseArgs` is left out: `Args.GetArgs` receives each flag's value directly, with `None` for a flag not given.
- `constants.ts` is not part of this model. `DEFAULT_MAX_ANALYSIS_WORKERS` is the parameter `defaultWorkers`.
- `toLowerCase` is modelled for ASCII letters only. Other Unicode case mappings are not modelled.
- Strings are sequences of characters, so UTF-16 surrogate pairs are not modelled.
- Args.ToNumber: returns `None`, not a value, for the numeric literals whose value it does not track: fractions, exponent forms, hexadecimal, octal and binary forms, `Infinity`, and integers beyond 2^53 in magnitude. JavaScript rounds such an integer to a nearby double, and that rounding is not modelled.
- Args.ToNumberShowInt: promises the round trip only up to 2^53 in magnitude, because beyond that JavaScript's `+` rounds.
- Args.GetArgs: leaves the worker limit untracked (`None`) when `--maxAnalysisWorkers` holds a numeric literal whose value `Args.ToNumber` does not track, such as "1e3", "0x10", "5.0" or "2.5". Some of these are integer counts in JavaScript, but computing their values is not modelled. The exit decision, its message and the folders are stated for every input.
- Matcher.PartialCorrectionCaseOnly: requires well-formed, canonical paths and a positive level. For a relative path with empty segments (a doubled `/`), the correction drops them, so its normalized form differs from the mod's by more than case.
- Matcher.ClassifyChangesCaseOnly: requires a canonical mod path, for the same reason.

## Findings

| source | as written | input that shows it | evidently intended | confidence | as-written member | corrected member |
|---|---|---|---|---|---|---|
| analyze-paths.worker.ts:15-28 | A mod path whose exact match has identical casing is pushed to neither list. | A mod file `/Meshes/Characters/Argonian/tail.nif` with an Oblivion file of the same relative path, as in test/oblivion-file-analyzer.test.ts:207-230. | The file is independent, as the test asserts, and `fixPaths` copies it. | not executed | Matcher.LiteralLosesSameCase | Matcher.ClassifyAllContents |
| analyze-paths.worker.ts:73-84 | A partial-match correction equal to the mod's own relative path is still reported as a problem. | A mod file `/OBSE/Plugins/SkyBSA.dll` against `/OBSE/Plugins/DUMMY/Blockhead.dll`, as in test/oblivion-file-analyzer.test.ts:232-276. | The file is independent, as the test asserts. | not executed | Matcher.LiteralAgreesExceptDiscrepancies | Matcher.Classify |
| util.ts:13-14 | Only NaN and 0 fall back to the default, so a negative worker limit is kept. `determineActualNumWorkers` then returns it, and no worker starts. | `--maxAnalysisWorkers=-1` with at least one mod file. | Any value that is not a positive count falls back to the default. | not executed | ArgsAnalysis.NegativeWorkersLoseEverything | ArgsAnalysis.AnalyzeWithSafeWorkers |

=== FILE: analyzer.dfy ===
/**
 * The pure parts of the analysis coordinator (oblivion-file-analyzer.ts):
 * how many workers to start, which contiguous chunk of the mod paths each one
 * receives, how the partial results are merged, how a `Path` is built from a
 * data folder and a walked file path, and where the fixer copies each file.
 *
 * The workers run concurrently in the source; here the fan-out is a
 * sequential map over the chunks followed by a fold in chunk order.
 */
module Analyzer {
  import opened Wrappers
  import opened Text
  import opened PathModel
  import opened Matcher

  // ---------------------------------------------------------------------------
  // Worker count and partitioning
  // ---------------------------------------------------------------------------

  /** `determineActualNumWorkers`: never more workers than mod paths. */
  function NumWorkers(maxWorkers: int, numModPaths: nat): (w: int)
    ensures w <= maxWorkers && w <= numModPaths
    ensures w == maxWorkers || w == numModPaths
  {
    if numModPaths < maxWorkers then numModPaths else maxWorkers
  }

  /**
   * `c * i` as repeated addition: the start index of chunk `i` when every
   * chunk before it has `c` items.
   */
  function Times(c: nat, i: nat): nat
  {
    if i == 0 then 0 else Times(c, i - 1) + c
  }

  lemma {:induction false} TimesIsProduct(c: nat, i: nat)
    ensures Times(c, i) == c * i
  {
    if i > 0 {
      TimesIsProduct(c, i - 1);
      assert c * (i - 1) + c == c * i;
    }
  }

  lemma {:induction false} TimesMonotone(c: nat, a: nat, b: nat)
    requires a <= b
    ensures Times(c, a) <= Times(c, b)
    decreases b - a
  {
    if a < b {
      TimesMonotone(c, a, b - 1);
    }
  }

  /**
   * With `c = floor(n / w)`: the `w` chunk starts fit in the list, and what
   * the last chunk takes from its start is `c + n % w`.
   */
  lemma ChunkSize(n: nat, w: nat)
    requires 1 <= w
    ensures Times(n / w, w) <= n
    ensures n - Times(n / w, w - 1) == n / w + n % w
  {
    var c := n / w;
    TimesIsProduct(c, w);
    assert Times(c, w) + n % w == n;
  }

  /** With no more workers than items, every chunk receives at least one item. */
  lemma ChunkSizePositive(n: nat, w: nat)
    requires 1 <= w <= n
    ensures n / w >= 1
  {
  }

  /** Chunk `i` of `w` chunks of nominal size `c` ends within the list. */
  lemma ChunkBound(n: nat, w: nat, c: nat, i: nat)
    requires i < w && Times(c, w) <= n
    ensures Times(c, i) + c == Times(c, i + 1) <= n
  {
    TimesMonotone(c, i + 1, w);
  }

  /**
   * The chunk worker `i` of `w` receives: `slice(start, start + c)` with
   * `start = c * i`, except the last worker, which takes every leftover.
   */
  function ChunkOf<T>(items: seq<T>, w: nat, c: nat, i: nat): (chunk: seq<T>)
    requires i < w && Times(c, w) <= |items|
  {
    ChunkBound(|items|, w, c, i);
    if i == w - 1 then items[Times(c, i)..] else items[Times(c, i)..Times(c, i) + c]
  }

  /** All `w` chunks of nominal size `c`, in worker order. */
  function Chunks<T>(items: seq<T>, w: nat, c: nat): (chunks: seq<seq<T>>)
    requires Times(c, w) <= |items|
    ensures |chunks| == w
  {
    seq(w, i requires 0 <= i < w => ChunkOf(items, w, c, i))
  }

  /** The chunks handed to the workers, with `c = floor(n / w)`. */
  function Partition<T>(items: seq<T>, maxWorkers: int): (chunks: seq<seq<T>>)
    ensures |chunks| == if NumWorkers(maxWorkers, |items|) > 0 then NumWorkers(maxWorkers, |items|) else 0
  {
    var w := NumWorkers(maxWorkers, |items|);
    if w <= 0 then []
    else
      ChunkSize(|items|, w);
      Chunks(items, w, |items| / w)
  }

  /** Every chunk but the last is the `c` items starting at `c * i`. */
  lemma ChunksMiddle<T>(items: seq<T>, w: nat, c: nat)
    requires 1 <= w && Times(c, w) <= |items|
    ensures forall i :: 0 <= i < w - 1 ==>
      Times(c, i) + c <= |items| && Chunks(items, w, c)[i] == items[Times(c, i)..Times(c, i) + c]
  {
    var chunks := Chunks(items, w, c);
    forall i | 0 <= i < w - 1
      ensures Times(c, i) + c <= |items| && chunks[i] == items[Times(c, i)..Times(c, i) + c]
    {
      ChunkBound(|items|, w, c, i);
      assert chunks[i] == ChunkOf(items, w, c, i);
    }
  }

  /** The last chunk is everything from `c * (w - 1)` on. */
  lemma ChunksLast<T>(items: seq<T>, w: nat, c: nat)
    requires 1 <= w && Times(c, w) <= |items|
    ensures Times(c, w - 1) + c <= |items| && Chunks(items, w, c)[w - 1] == items[Times(c, w - 1)..]
  {
    ChunkBound(|items|, w, c, w - 1);
    assert Chunks(items, w, c)[w - 1] == ChunkOf(items, w, c, w - 1);
  }

  /** No chunk is smaller than `c`, and none is larger than the last. */
  lemma ChunksSizes<T>(items: seq<T>, w: nat, c: nat)
    requires 1 <= w && Times(c, w) <= |items|
    ensures forall i :: 0 <= i < w ==> c <= |Chunks(items, w, c)[i]| <= |Chunks(items, w, c)[w - 1]|
  {
    var chunks := Chunks(items, w, c);
    ChunksMiddle(items, w, c);
    ChunksLast(items, w, c);
    forall i | 0 <= i < w
      ensures c <= |chunks[i]| <= |chunks[w - 1]|
    {
      if i < w - 1 {
        assert |chunks[i]| == c;
      }
    }
  }

  /**
   * With at least one worker allowed and at least one mod path, there are
   * `min(maxWorkers, n)` chunks; every chunk but the last is the slice
   * `[c * i, c * i + c)` of size `c = floor(n / w) >= 1`; the last is the
   * rest, of size `c + n % w`, and no chunk is larger.
   */
  lemma PartitionShape<T>(items: seq<T>, maxWorkers: int)
    requires maxWorkers >= 1 && |items| >= 1
    ensures 1 <= NumWorkers(maxWorkers, |items|) == |Partition(items, maxWorkers)|
    ensures |items| / NumWorkers(maxWorkers, |items|) >= 1
    ensures var w := NumWorkers(maxWorkers, |items|);
      var c := |items| / w;
      forall i :: 0 <= i < w - 1 ==>
        Times(c, i) + c <= |items| && Partition(items, maxWorkers)[i] == items[Times(c, i)..Times(c, i) + c]
    ensures var w := NumWorkers(maxWorkers, |items|);
      var c := |items| / w;
      && Times(c, w - 1) <= |items|
      && Partition(items, maxWorkers)[w - 1] == items[Times(c, w - 1)..]
      && |Partition(items, maxWorkers)[w - 1]| == c + |items| % w
    ensures var w := NumWorkers(maxWorkers, |items|);
      var c := |items| / w;
      forall i :: 0 <= i < w ==> c <= |Partition(items, maxWorkers)[i]| <= |Partition(items, maxWorkers)[w - 1]|
  {
    var n := |items|;
    var w := NumWorkers(maxWorkers, n);
    var c := n / w;
    ChunkSizePositive(n, w);
    ChunkSize(n, w);
    var chunks := Chunks(items, w, c);
    assert Partition(items, maxWorkers) == chunks;
    ChunksMiddle(items, w, c);
    ChunksLast(items, w, c);
    ChunksSizes(items, w, c);
    assert |chunks[w - 1]| == n - Times(c, w - 1);
  }

  /** The chunks concatenated in index order. */
  function Flatten<T>(chunks: seq<seq<T>>): seq<T> {
    if |chunks| == 0 then [] else Flatten(chunks[..|chunks| - 1]) + chunks[|chunks| - 1]
  }

  lemma SliceStep<T>(items: seq<T>, start: nat, end: nat)
    requires start <= end <= |items|
    ensures items[..end] == items[..start] + items[start..end]
  {
  }

  lemma {:induction false} FlattenPrefix<T>(items: seq<T>, w: nat, c: nat, k: nat)
    requires 1 <= w && k <= w - 1 && Times(c, w) <= |items|
    ensures Times(c, k) <= |items|
    ensures Flatten(Chunks(items, w, c)[..k]) == items[..Times(c, k)]
  {
    var chunks := Chunks(items, w, c);
    if k == 0 {
      assert chunks[..k] == [];
    } else {
      FlattenPrefix(items, w, c, k - 1);
      ChunkBound(|items|, w, c, k - 1);
      var start := Times(c, k - 1);
      var end := Times(c, k);
      assert chunks[..k][..k - 1] == chunks[..k - 1];
      assert chunks[k - 1] == items[start..end];
      SliceStep(items, start, end);
    }
  }

  /** Concatenating all `w` chunks of nominal size `c` gives back the list. */
  lemma ChunksFlatten<T>(items: seq<T>, w: nat, c: nat)
    requires 1 <= w && Times(c, w) <= |items|
    ensures Flatten(Chunks(items, w, c)) == items
  {
    var chunks := Chunks(items, w, c);
    var start := Times(c, w - 1);
    FlattenPrefix(items, w, c, w - 1);
    assert Flatten(chunks) == Flatten(chunks[..w - 1]) + chunks[w - 1];
    assert chunks[w - 1] == ChunkOf(items, w, c, w - 1) == items[start..];
    assert items == items[..start] + items[start..];
  }

  /**
   * With at least one worker allowed, concatenating the chunks in worker
   * order gives back exactly the mod path list: nothing lost, nothing
   * duplicated, order kept.
   */
  lemma PartitionFlatten<T>(items: seq<T>, maxWorkers: int)
    requires maxWorkers >= 1
    ensures Flatten(Partition(items, maxWorkers)) == items
  {
    var w := NumWorkers(maxWorkers, |items|);
    if w > 0 {
      ChunkSize(|items|, w);
      ChunksFlatten(items, w, |items| / w);
    }
  }

  /** Ten mod paths over three workers give chunks of 3, 3 and 4; two over five give 1 and 1. */
  lemma PartitionExamples<T>(ten: seq<T>, two: seq<T>)
    requires |ten| == 10 && |two| == 2
    ensures var p := Partition(ten, 3); |p| == 3 && |p[0]| == 3 && |p[1]| == 3 && |p[2]| == 4
    ensures var q := Partition(two, 5); |q| == 2 && |q[0]| == 1 && |q[1]| == 1
  {
  }

  // ---------------------------------------------------------------------------
  // Fan-out and merge
  // ---------------------------------------------------------------------------

  /** Every worker's partial result, in worker order. */
  function ChunkResults(chunks: seq<seq<Path>>, refs: seq<Path>, modRoot: string): (rs: seq<AnalysisResult>)
    ensures |rs| == |chunks|
    ensures forall i :: 0 <= i < |chunks| ==> rs[i] == ClassifyAll(chunks[i], refs, modRoot)
  {
    seq(|chunks|, i requires 0 <= i < |chunks| => ClassifyAll(chunks[i], refs, modRoot))
  }

  /** The `push(...)` of every partial result onto the shared lists, in worker order. */
  function MergeAll(parts: seq<AnalysisResult>): AnalysisResult {
    if |parts| == 0 then EmptyResult else Concat(MergeAll(parts[..|parts| - 1]), parts[|parts| - 1])
  }

  /**
   * `analyzePaths(maxWorkers)`: partition, classify every chunk, merge. The
   * merged lists are those of one pass over the chunks laid end to end, and
   * no worker means empty lists.
   */
  function AnalyzePaths(mods: seq<Path>, refs: seq<Path>, modRoot: string, maxWorkers: int): (r: AnalysisResult)
    ensures r == ClassifyAll(Flatten(Partition(mods, maxWorkers)), refs, modRoot)
    ensures NumWorkers(maxWorkers, |mods|) <= 0 ==> r == EmptyResult
  {
    var chunks := Partition(mods, maxWorkers);
    MergeIsSinglePass(chunks, refs, modRoot);
    MergeAll(ChunkResults(chunks, refs, modRoot))
  }

  /** Merging the chunks' results is classifying the concatenated chunks in one pass. */
  lemma {:induction false} MergeIsSinglePass(chunks: seq<seq<Path>>, refs: seq<Path>, modRoot: string)
    ensures MergeAll(ChunkResults(chunks, refs, modRoot)) == ClassifyAll(Flatten(chunks), refs, modRoot)
  {
    if |chunks| == 0 {
      assert ClassifyAll([], refs, modRoot) == EmptyResult;
    } else {
      var n := |chunks| - 1;
      MergeIsSinglePass(chunks[..n], refs, modRoot);
      assert ChunkResults(chunks, refs, modRoot)[..n] == ChunkResults(chunks[..n], refs, modRoot);
      ClassifyAllAppend(Flatten(chunks[..n]), chunks[n], refs, modRoot);
    }
  }

  /**
   * For any worker limit of at least one, the parallel analysis returns
   * exactly what one worker classifying the whole mod list would: every mod
   * path is accounted for once, and each list keeps input order.
   */
  lemma AnalyzeIsSinglePass(mods: seq<Path>, refs: seq<Path>, modRoot: string, maxWorkers: int)
    requires maxWorkers >= 1
    ensures AnalyzePaths(mods, refs, modRoot, maxWorkers) == ClassifyAll(mods, refs, modRoot)
    ensures Count(AnalyzePaths(mods, refs, modRoot, maxWorkers)) == |mods|
  {
    MergeIsSinglePass(Partition(mods, maxWorkers), refs, modRoot);
    PartitionFlatten(mods, maxWorkers);
  }

  /** No mod paths means no worker and an empty result. */
  lemma AnalyzeEmpty(refs: seq<Path>, modRoot: string, maxWorkers: int)
    ensures NumWorkers(maxWorkers, 0) <= 0
    ensures AnalyzePaths([], refs, modRoot, maxWorkers) == EmptyResult
  {
  }

  /** A worker limit below one starts no worker, so every mod path is lost. */
  lemma AnalyzeNonPositiveLimit(mods: seq<Path>, refs: seq<Path>, modRoot: string, maxWorkers: int)
    requires maxWorkers <= 0
    ensures AnalyzePaths(mods, refs, modRoot, maxWorkers) == EmptyResult
    ensures |mods| > 0 ==> Count(AnalyzePaths(mods, refs, modRoot, maxWorkers)) < |mods|
  {
  }

  // ---------------------------------------------------------------------------
  // Building paths from a directory walk
  // ---------------------------------------------------------------------------

  /**
   * `initPathArr`'s record for one walked file path under `dataFolder`. The
   * walked path is kept; when it starts with the folder, the relative path is
   * what follows the folder and the record is well-formed.
   */
  function MakePath(dataFolder: string, fullPath: string): (p: Path)
    ensures p.realPath == fullPath && p.normalizedPath == Lower(fullPath)
    ensures StartsWith(fullPath, dataFolder) ==>
      && p.realRelativePath == fullPath[|dataFolder|..]
      && p.realPath == dataFolder + p.realRelativePath
      && WellFormed(p)
  {
    var normalizedPath := Lower(fullPath);
    var p := Path(fullPath, RemoveFirst(fullPath, dataFolder), normalizedPath, RemoveFirst(normalizedPath, Lower(dataFolder)));
    if StartsWith(fullPath, dataFolder) then StripFolder(dataFolder, fullPath); p else p
  }

  /** Both `replace` calls remove the folder prefix, from the real and from the lower-cased path. */
  lemma StripFolder(dataFolder: string, fullPath: string)
    requires StartsWith(fullPath, dataFolder)
    ensures RemoveFirst(fullPath, dataFolder) == fullPath[|dataFolder|..]
    ensures RemoveFirst(Lower(fullPath), Lower(dataFolder)) == Lower(fullPath[|dataFolder|..])
    ensures fullPath == dataFolder + fullPath[|dataFolder|..]
  {
    var rel := fullPath[|dataFolder|..];
    assert fullPath == fullPath[..|dataFolder|] + rel;
    RemoveFirstPrefix(fullPath, dataFolder);
    LowerPrefix(fullPath, dataFolder);
    RemoveFirstPrefix(Lower(fullPath), Lower(dataFolder));
  }

  /**
   * A walked path that continues after the data folder with a separator
   * gives a record that lies under the folder.
   */
  lemma MakePathUnderRoot(dataFolder: string, fullPath: string)
    requires StartsWith(fullPath, dataFolder)
    requires |fullPath| > |dataFolder| && fullPath[|dataFolder|] == Sep
    ensures UnderRoot(MakePath(dataFolder, fullPath), dataFolder)
  {
  }

  /** `initPathArr` over a whole walk. */
  function InitPaths(dataFolder: string, walked: seq<string>): (ps: seq<Path>)
    ensures |ps| == |walked|
    ensures forall k :: 0 <= k < |walked| ==> ps[k] == MakePath(dataFolder, walked[k])
  {
    seq(|walked|, k requires 0 <= k < |walked| => MakePath(dataFolder, walked[k]))
  }

  /** Every record of a walk under the data folder is well-formed and keeps its walked path. */
  lemma InitPathsWellFormed(dataFolder: string, walked: seq<string>)
    requires forall k :: 0 <= k < |walked| ==> StartsWith(walked[k], dataFolder)
    ensures forall k :: 0 <= k < |walked| ==>
      var p := InitPaths(dataFolder, walked)[k];
      WellFormed(p) && p.realPath == walked[k] && p.realPath == dataFolder + p.realRelativePath
  {
    forall k | 0 <= k < |walked|
      ensures var p := InitPaths(dataFolder, walked)[k];
        WellFormed(p) && p.realPath == walked[k] && p.realPath == dataFolder + p.realRelativePath
    {
      assert InitPaths(dataFolder, walked)[k] == MakePath(dataFolder, walked[k]);
    }
  }

  // ---------------------------------------------------------------------------
  // Fixing: where each file is copied
  // ---------------------------------------------------------------------------

  /** The reserved output folder name under the mod data folder. */
  const FixedFilesOutputDir: string := "OMFCF_FIXED"

  /** `fixedFilesOutputPath`. */
  function FixedFilesOutputPath(modRoot: string): string {
    modRoot + [Sep] + FixedFilesOutputDir
  }

  /** One copy the fixer performs. */
  datatype CopyJob = CopyJob(source: string, destination: string)

  /** `${correctedPath?.realRelativePath}`: an absent path renders as "undefined". */
  function RenderRelative(p: Option<Path>): string {
    match p
    case Some(path) => path.realRelativePath
    case None => "undefined"
  }

  /** The copies `fixPaths` starts: every problem path, then every independent path. */
  function FixJobs(result: AnalysisResult, modRoot: string): (jobs: seq<CopyJob>)
    ensures |jobs| == Count(result)
  {
    var out := FixedFilesOutputPath(modRoot);
    var ps := result.problemPaths;
    var ins := result.independentPaths;
    seq(|ps|, k requires 0 <= k < |ps| => CopyJob(ps[k].existingPath.realPath, out + [Sep] + RenderRelative(ps[k].correctedPath)))
    + seq(|ins|, k requires 0 <= k < |ins| => CopyJob(ins[k].existingPath.realPath, out + [Sep] + ins[k].existingPath.realRelativePath))
  }

  /** The relative part of a destination: what follows the output folder and its separator. */
  function DestinationRelative(destination: string, modRoot: string): string
    requires |destination| > |FixedFilesOutputPath(modRoot)|
  {
    destination[|FixedFilesOutputPath(modRoot)| + 1..]
  }

  /** Every problem entry of a result carries a corrected path. */
  predicate ProblemsCorrected(r: AnalysisResult) {
    forall k :: 0 <= k < |r.problemPaths| ==> r.problemPaths[k].correctedPath.Some?
  }

  /**
   * For any result whose problem entries carry a correction, there is one
   * copy per entry; a problem file is copied from its existing path to its
   * corrected relative path under `<modRoot>/OMFCF_FIXED`, and an
   * independent file to its existing relative path there.
   */
  lemma FixJobsShape(r: AnalysisResult, modRoot: string)
    requires ProblemsCorrected(r)
    ensures var jobs := FixJobs(r, modRoot);
      var out := FixedFilesOutputPath(modRoot);
      && (forall k :: 0 <= k < |r.problemPaths| ==>
            var e := r.problemPaths[k];
            && jobs[k].source == e.existingPath.realPath
            && jobs[k].destination == out + [Sep] + e.correctedPath.value.realRelativePath
            && DestinationRelative(jobs[k].destination, modRoot) == e.correctedPath.value.realRelativePath)
      && (forall k :: 0 <= k < |r.independentPaths| ==>
            var e := r.independentPaths[k];
            && jobs[|r.problemPaths| + k].source == e.existingPath.realPath
            && jobs[|r.problemPaths| + k].destination == out + [Sep] + e.existingPath.realRelativePath
            && DestinationRelative(jobs[|r.problemPaths| + k].destination, modRoot) == e.existingPath.realRelativePath)
  {
  }

  /**
   * A result produced by the analysis has a correction on every problem
   * entry, so the fixer copies exactly one file per mod path and never
   * writes to `<modRoot>/OMFCF_FIXED/undefined`.
   */
  lemma FixJobsDestinations(mods: seq<Path>, refs: seq<Path>, modRoot: string, maxWorkers: int)
    requires maxWorkers >= 1
    ensures ProblemsCorrected(AnalyzePaths(mods, refs, modRoot, maxWorkers))
    ensures |FixJobs(AnalyzePaths(mods, refs, modRoot, maxWorkers), modRoot)| == |mods|
  {
    AnalyzeIsSinglePass(mods, refs, modRoot, maxWorkers);
    ClassifyAllContents(mods, refs, modRoot);
    var r := AnalyzePaths(mods, refs, modRoot, maxWorkers);
    forall k | 0 <= k < |r.problemPaths|
      ensures r.problemPaths[k].correctedPath.Some?
    {
      assert r.problemPaths[k] in r.problemPaths;
    }
  }
}

=== FILE: args.dfy ===
/**
 * Command-line handling (util.ts): `treatPathString`, the `+`-conversion and
 * defaulting of `--maxAnalysisWorkers`, and `getArgs`' check for the two
 * required folder arguments with its exit message.
 *
 * Option parsing itself (`parseArgs`) is outside the model: `getArgs` here
 * receives each flag's value, `None` when the flag was not given.
 */
module Args {
  import opened Wrappers
  import opened Text

  // ---------------------------------------------------------------------------
  // treatPathString
  // ---------------------------------------------------------------------------

  /** The `while (last === '/') pop()` loop: removes every trailing separator. */
  function DropTrailingSeps(s: string): (r: string)
    ensures |r| <= |s| && r == s[..|r|]
    ensures |r| == 0 || r[|r| - 1] != Sep
    ensures forall i :: |r| <= i < |s| ==> s[i] == Sep
  {
    if |s| > 0 && s[|s| - 1] == Sep then DropTrailingSeps(s[..|s| - 1]) else s
  }

  /**
   * `treatPathString(path)`: trim, then drop trailing separators. An absent
   * path stands for "", which both steps leave as it is.
   */
  function TreatPath(path: Option<string>): (r: string)
    ensures path.None? ==> r == ""
    ensures |r| == 0 || r[|r| - 1] != Sep
  {
    match path
    case Some(p) => DropTrailingSeps(Trim(p))
    case None => ""
  }

  /** A run made only of separators. */
  predicate AllSeps(t: string) {
    forall i :: 0 <= i < |t| ==> t[i] == Sep
  }

  /**
   * `treatPathString` splits the trimmed path into a kept part, which does
   * not end in a separator, followed by a run of separators only.
   */
  lemma TreatPathSplits(path: Option<string>)
    ensures var r := TreatPath(path);
      && (|r| == 0 || r[|r| - 1] != Sep)
      && exists t :: AllSeps(t) && Trim(path.GetOr("")) == r + t
  {
    var s := Trim(path.GetOr(""));
    var r := TreatPath(path);
    var t := s[|r|..];
    assert AllSeps(t);
    assert s == r + t;
  }

  /**
   * Conversely, there is only one such split: whenever the trimmed path is
   * `r` followed by separators and `r` does not end in one, the result is `r`.
   */
  lemma {:induction false} DropTrailingSepsUnique(s: string, r: string, t: string)
    requires s == r + t && AllSeps(t)
    requires |r| == 0 || r[|r| - 1] != Sep
    ensures DropTrailingSeps(s) == r
    decreases |t|
  {
    if |t| > 0 {
      assert s[..|s| - 1] == r + t[..|t| - 1];
      DropTrailingSepsUnique(s[..|s| - 1], r, t[..|t| - 1]);
    } else {
      assert s == r;
    }
  }

  lemma TreatPathUnique(path: Option<string>, r: string, t: string)
    requires Trim(path.GetOr("")) == r + t && AllSeps(t)
    requires |r| == 0 || r[|r| - 1] != Sep
    ensures TreatPath(path) == r
  {
    DropTrailingSepsUnique(Trim(path.GetOr("")), r, t);
  }

  /** A string with no whitespace at either end is its own trim. */
  lemma TrimUnchanged(s: string)
    requires |s| == 0 || (!IsJsWhitespace(s[0]) && !IsJsWhitespace(s[|s| - 1]))
    ensures Trim(s) == s
  {
  }

  /** An argument that is absent, empty, blank or only separators treats to "". */
  lemma TreatPathEmpty(path: Option<string>)
    requires path.None? || AllSeps(Trim(path.value))
    ensures TreatPath(path) == ""
  {
    TreatPathUnique(path, "", Trim(path.GetOr("")));
  }

  /**
   * Surrounding whitespace and trailing separators are all removed: a path
   * that starts and ends with neither comes back unchanged from any such
   * padding ("  /a/folder/somewhere  ", "/another/folder/somewhere/else/      ").
   */
  lemma TreatPathStripsPadding(pre: string, core: string, seps: string, post: string)
    requires AllWhitespace(pre) && AllSeps(seps) && AllWhitespace(post)
    requires |core| > 0 && !IsJsWhitespace(core[0])
    requires !IsJsWhitespace(core[|core| - 1]) && core[|core| - 1] != Sep
    ensures TreatPath(Some(pre + core + seps + post)) == core
  {
    var kept := core + seps;
    assert kept[|kept| - 1] == if |seps| > 0 then Sep else core[|core| - 1];
    assert pre + core + seps + post == pre + kept + post;
    TrimPadded(pre, kept, post);
    TreatPathUnique(Some(pre + core + seps + post), core, seps);
  }

  /**
   * Whitespace before a trailing separator is kept: the result can end in
   * whitespace, and treating it again changes it.
   */
  lemma TreatPathKeepsInnerWhitespace()
    ensures TreatPath(Some("x /")) == "x "
    ensures TreatPath(Some(TreatPath(Some("x /")))) == "x"
  {
    TrimUnchanged("x /");
    TreatPathUnique(Some("x /"), "x ", "/");
    assert Trim("x ") == "x";
    TreatPathUnique(Some("x "), "x", "");
  }

  // ---------------------------------------------------------------------------
  // +(maxAnalysisWorkers ?? '')
  // ---------------------------------------------------------------------------

  /** A JavaScript number as far as the worker limit needs one. */
  datatype NumberValue = NaN | Int(value: int)

  predicate IsDigit(c: char) {
    '0' <= c <= '9'
  }

  predicate AllDigits(s: string) {
    forall i :: 0 <= i < |s| ==> IsDigit(s[i])
  }

  /** The value of a run of decimal digits. */
  function DigitsValue(s: string): nat
    requires AllDigits(s)
  {
    if |s| == 0 then 0 else DigitsValue(s[..|s| - 1]) * 10 + (s[|s| - 1] as int - '0' as int)
  }

  /** The decimal rendering of a natural number, without leading zeros. */
  function ShowNat(n: nat): (s: string)
    ensures |s| >= 1 && AllDigits(s)
  {
    if n < 10 then [('0' as int + n) as char] else ShowNat(n / 10) + [('0' as int + n % 10) as char]
  }

  /** Reading back a rendered number gives the number. */
  lemma {:induction false} DigitsValueShowNat(n: nat)
    ensures DigitsValue(ShowNat(n)) == n
  {
    if n >= 10 {
      DigitsValueShowNat(n / 10);
      var s := ShowNat(n);
      assert s[..|s| - 1] == ShowNat(n / 10);
    }
  }

  /** An optionally signed run of at least one decimal digit. */
  predicate IsSignedInteger(t: string) {
    if |t| > 0 && (t[0] == '-' || t[0] == '+') then |t| > 1 && AllDigits(t[1..])
    else |t| > 0 && AllDigits(t)
  }

  function SignedValue(t: string): int
    requires IsSignedInteger(t)
  {
    if t[0] == '-' then -(DigitsValue(t[1..]) as int)
    else if t[0] == '+' then DigitsValue(t[1..])
    else DigitsValue(t)
  }

  /** A non-empty run of decimal digits. */
  predicate IsDigits(s: string) {
    |s| > 0 && AllDigits(s)
  }

  /** The first position holding `c` or `d`, if any. */
  function FindEither(s: string, c: char, d: char): (r: Option<nat>)
    ensures r.Some? ==> r.value < |s| && (s[r.value] == c || s[r.value] == d)
    ensures r.Some? ==> forall i :: 0 <= i < r.value ==> s[i] != c && s[i] != d
    ensures r.None? ==> forall i :: 0 <= i < |s| ==> s[i] != c && s[i] != d
  {
    if |s| == 0 then None
    else if s[0] == c || s[0] == d then Some(0)
    else
      match FindEither(s[1..], c, d)
      case Some(i) => Some(i + 1)
      case None => None
  }

  /** `DecimalDigits`, `DecimalDigits .`, `DecimalDigits . DecimalDigits` or `. DecimalDigits`. */
  predicate IsMantissa(m: string) {
    match FindEither(m, '.', '.')
    case None => IsDigits(m)
    case Some(d) => |m| > 1 && AllDigits(m[..d]) && AllDigits(m[d + 1..])
  }

  /** `StrUnsignedDecimalLiteral`: `Infinity`, or a mantissa with an optional exponent part. */
  predicate IsUnsignedDecimal(u: string) {
    || u == "Infinity"
    || match FindEither(u, 'e', 'E')
       case None => IsMantissa(u)
       case Some(e) => IsMantissa(u[..e]) && IsSignedInteger(u[e + 1..])
  }

  predicate IsHexDigit(c: char) {
    IsDigit(c) || 'a' <= c <= 'f' || 'A' <= c <= 'F'
  }

  /** `NonDecimalIntegerLiteral`: `0x`, `0o` or `0b` followed by digits of that radix. */
  predicate IsRadixLiteral(t: string) {
    && |t| > 2 && t[0] == '0'
    && (|| ((t[1] == 'x' || t[1] == 'X') && (forall i :: 2 <= i < |t| ==> IsHexDigit(t[i])))
        || ((t[1] == 'o' || t[1] == 'O') && (forall i :: 2 <= i < |t| ==> '0' <= t[i] <= '7'))
        || ((t[1] == 'b' || t[1] == 'B') && (forall i :: 2 <= i < |t| ==> t[i] == '0' || t[i] == '1')))
  }

  /**
   * JavaScript's `StrNumericLiteral`: the trimmed, non-blank strings that
   * unary `+` converts to a number rather than to NaN.
   */
  predicate IsNumericLiteral(t: string) {
    || IsRadixLiteral(t)
    || (|t| > 0 && (t[0] == '+' || t[0] == '-') && IsUnsignedDecimal(t[1..]))
    || IsUnsignedDecimal(t)
  }

  /** A signed decimal integer is one of the numeric literals. */
  lemma SignedIntegerIsNumeric(t: string)
    requires IsSignedInteger(t)
    ensures IsNumericLiteral(t)
  {
    var u := if t[0] == '-' || t[0] == '+' then t[1..] else t;
    assert IsDigits(u);
    NoDigitIsMarker(u, 'e', 'E');
    NoDigitIsMarker(u, '.', '.');
    assert IsUnsignedDecimal(u);
  }

  /** A run of digits holds no exponent marker and no decimal point. */
  lemma NoDigitIsMarker(u: string, c: char, d: char)
    requires AllDigits(u) && !IsDigit(c) && !IsDigit(d)
    ensures FindEither(u, c, d).None?
  {
  }

  /** 2^53: every integer of at most this magnitude is a double exactly. */
  const MaxExactInteger: int := 0x20_0000_0000_0000

  /**
   * The unary `+` on a string. Blank is 0; a signed decimal integer within
   * the exactly representable range is its value; a non-blank string that
   * is not a numeric literal is NaN. `None` marks the numeric literals whose
   * value the model does not track: fractions, exponent forms, radix forms,
   * Infinity, and integers beyond 2^53, which JavaScript rounds.
   */
  function ToNumber(s: string): (r: Option<NumberValue>)
    ensures Trim(s) == "" ==> r == Some(Int(0))
    ensures IsSignedInteger(Trim(s)) && -MaxExactInteger <= SignedValue(Trim(s)) <= MaxExactInteger ==>
      r == Some(Int(SignedValue(Trim(s))))
    ensures r == Some(NaN) <==> Trim(s) != "" && !IsNumericLiteral(Trim(s))
    ensures r.None? ==> IsNumericLiteral(Trim(s))
  {
    var t := Trim(s);
    if t == "" then Some(Int(0))
    else if IsSignedInteger(t) && -MaxExactInteger <= SignedValue(t) <= MaxExactInteger then
      SignedIntegerIsNumeric(t);
      Some(Int(SignedValue(t)))
    else if IsNumericLiteral(t) then None
    else Some(NaN)
  }

  /** The decimal rendering of an integer, with "-" for a negative one. */
  function ShowInt(i: int): string {
    if i < 0 then "-" + ShowNat(-i) else ShowNat(i)
  }

  /** A rendered integer is a signed integer literal whose value is the integer. */
  lemma ShowIntSigned(i: int)
    ensures IsSignedInteger(ShowInt(i)) && SignedValue(ShowInt(i)) == i
  {
    var s := ShowInt(i);
    if i < 0 {
      DigitsValueShowNat(-i);
      assert s[1..] == ShowNat(-i);
    } else {
      DigitsValueShowNat(i);
    }
  }

  /**
   * An integer written in decimal converts back to itself when it is at most
   * 2^53 in magnitude; beyond that its value is not tracked.
   */
  lemma ToNumberShowInt(i: int)
    ensures -MaxExactInteger <= i <= MaxExactInteger ==> ToNumber(ShowInt(i)) == Some(Int(i))
    ensures !(-MaxExactInteger <= i <= MaxExactInteger) ==> ToNumber(ShowInt(i)) == None
  {
    var s := ShowInt(i);
    ShowIntSigned(i);
    assert !IsJsWhitespace(s[0]) by {
      assert s[0] == '-' || IsDigit(s[0]);
    }
    assert !IsJsWhitespace(s[|s| - 1]) by {
      assert IsDigit(s[|s| - 1]);
    }
    TrimUnchanged(s);
    SignedIntegerIsNumeric(s);
  }

  /** `+(maxAnalysisWorkers ?? '')`: an absent flag converts as "" does, to 0. */
  function ParseWorkers(arg: Option<string>): (r: Option<NumberValue>)
    ensures arg.Some? ==> r == ToNumber(arg.value)
    ensures arg.None? ==> r == Some(Int(0))
  {
    var text := match arg
      case Some(a) => a
      case None => "";
    ToNumber(text)
  }

  // ---------------------------------------------------------------------------
  // The worker limit
  // ---------------------------------------------------------------------------

  /**
   * `safeMaxAnalysisWorkers` as written: NaN and 0 become the default, any
   * other value, negative ones included, is kept.
   */
  function DefaultedWorkers(parsed: NumberValue, defaultWorkers: int): (w: int)
    ensures parsed.NaN? || parsed == Int(0) ==> w == defaultWorkers
    ensures parsed.Int? && parsed.value != 0 ==> w == parsed.value
  {
    match parsed
    case NaN => defaultWorkers
    case Int(v) => if v == 0 then defaultWorkers else v
  }

  /**
   * The limit as evidently intended: anything that is not a positive count
   * becomes the default.
   */
  function SafeWorkers(parsed: NumberValue, defaultWorkers: int): (w: int)
    requires defaultWorkers >= 1
    ensures w >= 1
    ensures parsed.Int? && parsed.value >= 1 ==> w == parsed.value
    ensures !(parsed.Int? && parsed.value >= 1) ==> w == defaultWorkers
  {
    match parsed
    case NaN => defaultWorkers
    case Int(v) => if v >= 1 then v else defaultWorkers
  }

  /** The two agree on every input except a negative number. */
  lemma SafeAgreesExceptNegative(parsed: NumberValue, defaultWorkers: int)
    requires defaultWorkers >= 1
    ensures SafeWorkers(parsed, defaultWorkers) != DefaultedWorkers(parsed, defaultWorkers)
      <==> parsed.Int? && parsed.value < 0
  {
  }

  // ---------------------------------------------------------------------------
  // getArgs
  // ---------------------------------------------------------------------------

  /**
   * `ScriptArgs`. The worker limit is `None` when the flag holds a numeric
   * literal whose value `ToNumber` does not track.
   */
  datatype ScriptArgs = ScriptArgs(oblivionDataFolder: string, modDataFolder: string, maxAnalysisWorkers: Option<int>)

  /** What `getArgs` returns, and the message it exits with, if it does. */
  datatype ArgsOutcome = ArgsOutcome(args: ScriptArgs, exitError: Option<string>)

  /** `parts.join(sep)`. */
  function JoinWith(parts: seq<string>, sep: string): string {
    if |parts| == 0 then ""
    else if |parts| == 1 then parts[0]
    else parts[0] + sep + JoinWith(parts[1..], sep)
  }

  /** The names of the required folders whose treated value is empty, in flag order. */
  function MissingRequired(oblivionFolder: string, modFolder: string): (missing: seq<string>)
    ensures |missing| == (if oblivionFolder == "" then 1 else 0) + (if modFolder == "" then 1 else 0)
    ensures "oblivionDataFolder" in missing <==> oblivionFolder == ""
    ensures "modDataFolder" in missing <==> modFolder == ""
    ensures |missing| > 0 && oblivionFolder == "" ==> missing[0] == "oblivionDataFolder"
  {
    (if oblivionFolder == "" then ["oblivionDataFolder"] else [])
    + (if modFolder == "" then ["modDataFolder"] else [])
  }

  /** The message naming every missing flag and showing the first as an example. */
  function MissingMessage(missing: seq<string>): string
    requires |missing| > 0
  {
    var (names, example) := MessageParts(missing);
    "The arguments " + names + " must be provided. Note that paths are case-sensitive. Example: --"
    + example + "=~/path/to/folder/Data"
  }

  /**
   * `getArgs`, given the three flag values (`None` for a flag not given) and
   * the default worker limit. It exits exactly when a treated folder is
   * empty, and the folders it returns are the treated ones, whatever the
   * worker flag holds. The worker limit is the converted flag with NaN and 0
   * replaced by the default; it is untracked exactly when the flag holds a
   * number `ToNumber` does not track.
   */
  function GetArgs(oblivionArg: Option<string>, modArg: Option<string>, workersArg: Option<string>, defaultWorkers: int): (o: ArgsOutcome)
    ensures o.exitError.Some? <==> TreatPath(oblivionArg) == "" || TreatPath(modArg) == ""
    ensures o.exitError.Some? ==>
      o.exitError.value == MissingMessage(MissingRequired(TreatPath(oblivionArg), TreatPath(modArg)))
    ensures o.args.oblivionDataFolder == TreatPath(oblivionArg)
    ensures o.args.modDataFolder == TreatPath(modArg)
    ensures o.args.maxAnalysisWorkers.None? <==> ParseWorkers(workersArg).None?
    ensures ParseWorkers(workersArg).Some? ==>
      o.args.maxAnalysisWorkers == Some(DefaultedWorkers(ParseWorkers(workersArg).value, defaultWorkers))
  {
    var oblivionFolder := TreatPath(oblivionArg);
    var modFolder := TreatPath(modArg);
    var missing := MissingRequired(oblivionFolder, modFolder);
    var limit := match ParseWorkers(workersArg)
      case None => None
      case Some(parsed) => Some(DefaultedWorkers(parsed, defaultWorkers));
    ArgsOutcome(ScriptArgs(oblivionFolder, modFolder, limit),
                if |missing| > 0 then Some(MissingMessage(missing)) else None)
  }

  /**
   * The worker limit `getArgs` settles on: the default when the flag is
   * absent or not a number, and the given count when it is a decimal count.
   */
  lemma WorkerLimitFromFlag(oblivionArg: Option<string>, modArg: Option<string>, workersArg: Option<string>, defaultWorkers: int)
    ensures workersArg.None? ==>
      GetArgs(oblivionArg, modArg, workersArg, defaultWorkers).args.maxAnalysisWorkers == Some(defaultWorkers)
    ensures workersArg.Some? && Trim(workersArg.value) != "" && !IsNumericLiteral(Trim(workersArg.value)) ==>
      GetArgs(oblivionArg, modArg, workersArg, defaultWorkers).args.maxAnalysisWorkers == Some(defaultWorkers)
    ensures forall n: nat :: 1 <= n <= MaxExactInteger ==>
      GetArgs(oblivionArg, modArg, Some(ShowInt(n)), defaultWorkers).args.maxAnalysisWorkers == Some(n)
  {
    if workersArg.None? {
      assert ParseWorkers(workersArg) == Some(Int(0));
    }
    forall n: nat | 1 <= n <= MaxExactInteger
      ensures GetArgs(oblivionArg, modArg, Some(ShowInt(n)), defaultWorkers).args.maxAnalysisWorkers == Some(n)
    {
      ToNumberShowInt(n);
      assert ParseWorkers(Some(ShowInt(n))) == Some(Int(n));
      assert DefaultedWorkers(Int(n), defaultWorkers) == n;
    }
  }

  /** The message's two variable parts: the comma-joined missing flags, and the one shown as the example. */
  function MessageParts(missing: seq<string>): (string, string)
    requires |missing| > 0
  {
    (JoinWith(missing, ", "), missing[0])
  }

  /**
   * The exit message names the missing flags in flag order, separated by
   * ", ", and shows the first of them as the example.
   */
  lemma MissingMessages(oblivionFolder: string, modFolder: string)
    ensures oblivionFolder == "" && modFolder == "" ==>
      MessageParts(MissingRequired(oblivionFolder, modFolder))
        == ("oblivionDataFolder, modDataFolder", "oblivionDataFolder")
    ensures oblivionFolder == "" && modFolder != "" ==>
      MessageParts(MissingRequired(oblivionFolder, modFolder)) == ("oblivionDataFolder", "oblivionDataFolder")
    ensures oblivionFolder != "" && modFolder == "" ==>
      MessageParts(MissingRequired(oblivionFolder, modFolder)) == ("modDataFolder", "modDataFolder")
  {
    var missing := MissingRequired(oblivionFolder, modFolder);
    if oblivionFolder == "" && modFolder == "" {
      assert missing == ["oblivionDataFolder", "modDataFolder"];
      assert JoinWith(missing, ", ") == "oblivionDataFolder" + ", " + JoinWith(["modDataFolder"], ", ");
      assert "oblivionDataFolder" + ", " + "modDataFolder" == "oblivionDataFolder, modDataFolder";
    } else if oblivionFolder == "" {
      assert missing == ["oblivionDataFolder"];
    } else if modFolder == "" {
      assert missing == ["modDataFolder"];
    }
  }
}

/**
 * The command line feeding the analysis: what the worker limit `getArgs`
 * produces does to the result of `analyzePaths`.
 */
module ArgsAnalysis {
  import opened Wrappers
  import opened PathModel
  import opened Matcher
  import opened Analyzer
  import opened Args

  /**
   * A negative `--maxAnalysisWorkers` (such as "-1") passes `getArgs`, and
   * the analysis run with it starts no worker: every mod path is lost.
   */
  lemma NegativeWorkersLoseEverything(oblivionArg: Option<string>, modArg: Option<string>, n: int, defaultWorkers: int,
                                      mods: seq<Path>, refs: seq<Path>, modRoot: string)
    requires -MaxExactInteger <= n < 0 && |mods| > 0
    ensures GetArgs(oblivionArg, modArg, Some(ShowInt(n)), defaultWorkers).args.maxAnalysisWorkers == Some(n)
    ensures AnalyzePaths(mods, refs, modRoot, n) == EmptyResult
    ensures Count(AnalyzePaths(mods, refs, modRoot, n)) < |mods|
  {
    ToNumberShowInt(n);
    assert ParseWorkers(Some(ShowInt(n))) == Some(Int(n));
    assert DefaultedWorkers(Int(n), defaultWorkers) == n;
    AnalyzeNonPositiveLimit(mods, refs, modRoot, n);
  }

  /**
   * With the corrected limit and a positive default, every flag value leads
   * to an analysis that accounts for every mod path, in one-pass order.
   */
  lemma AnalyzeWithSafeWorkers(parsed: NumberValue, defaultWorkers: int, mods: seq<Path>, refs: seq<Path>, modRoot: string)
    requires defaultWorkers >= 1
    ensures var w := SafeWorkers(parsed, defaultWorkers);
      && AnalyzePaths(mods, refs, modRoot, w) == ClassifyAll(mods, refs, modRoot)
      && Count(AnalyzePaths(mods, refs, modRoot, w)) == |mods|
  {
    AnalyzeIsSinglePass(mods, refs, modRoot, SafeWorkers(parsed, defaultWorkers));
  }
}

=== FILE: matcher.dfy ===
/**
 * The per-path matcher each analysis worker runs (analyze-paths.worker.ts):
 * an exact case-insensitive lookup of the mod path among the Oblivion paths,
 * and, failing that, the deepest partial match by leading segments, from which
 * a case-corrected relative path is synthesized.
 *
 * Two classifications are defined. `LiteralClassify` is the worker as its text
 * reads: a mod path with a same-case exact match is pushed to neither list,
 * and a synthesized correction equal to the existing path is still reported.
 * `Classify` is the behaviour the test suite asserts: both of those paths are
 * independent. Everything downstream uses `Classify`.
 */
module Matcher {
  import opened Wrappers
  import opened Text
  import opened PathModel

  // ---------------------------------------------------------------------------
  // Step 1: exact match
  // ---------------------------------------------------------------------------

  /** `allOblivionPaths.find(...)` from position `from`: the first Oblivion path whose normalized relative path equals the mod's. */
  function FirstExact(mod: Path, refs: seq<Path>, from: nat := 0): (r: Option<nat>)
    requires from <= |refs|
    ensures r.Some? ==> from <= r.value < |refs|
    ensures r.Some? ==> refs[r.value].normalizedRelativePath == mod.normalizedRelativePath
    ensures r.Some? ==> forall j :: from <= j < r.value ==> refs[j].normalizedRelativePath != mod.normalizedRelativePath
    ensures r.None? <==> forall j :: from <= j < |refs| ==> refs[j].normalizedRelativePath != mod.normalizedRelativePath
    decreases |refs| - from
  {
    if from == |refs| then None
    else if refs[from].normalizedRelativePath == mod.normalizedRelativePath then Some(from)
    else FirstExact(mod, refs, from + 1)
  }

  // ---------------------------------------------------------------------------
  // Step 2: partial match
  // ---------------------------------------------------------------------------

  /**
   * The number of leading segments on which `modParts` and `refParts` agree:
   * the length of their longest common prefix.
   */
  function MatchLevel(modParts: seq<string>, refParts: seq<string>): (m: nat)
    ensures m <= |modParts| && m <= |refParts|
    ensures forall i :: 0 <= i < m ==> modParts[i] == refParts[i]
    ensures m < |modParts| && m < |refParts| ==> modParts[m] != refParts[m]
  {
    if |modParts| == 0 || |refParts| == 0 || modParts[0] != refParts[0] then 0
    else 1 + MatchLevel(modParts[1..], refParts[1..])
  }

  /** A common prefix that cannot be extended is the one `MatchLevel` measures. */
  lemma MatchLevelUnique(modParts: seq<string>, refParts: seq<string>, m: nat)
    requires m <= |modParts| && m <= |refParts|
    requires forall i :: 0 <= i < m ==> modParts[i] == refParts[i]
    requires m == |modParts| || m == |refParts| || modParts[m] != refParts[m]
    ensures MatchLevel(modParts, refParts) == m
  {
  }

  /** The match level of an Oblivion path for a mod path, on their normalized segments. */
  function Level(mod: Path, ref: Path): nat {
    MatchLevel(Segments(mod.normalizedRelativePath), Segments(ref.normalizedRelativePath))
  }

  /** `parts[i]` as a template string renders it: an index past the end reads as "". */
  function PartAt(parts: seq<string>, i: int): string {
    if 0 <= i < |parts| then parts[i] else ""
  }

  /** `parts.slice(from)`. */
  function SliceFrom(parts: seq<string>, from: nat): seq<string> {
    if from <= |parts| then parts[from..] else []
  }

  /**
   * The synthesized relative path: the Oblivion path's first `level` real
   * segments, then the mod path's own real segments from `level` on.
   */
  function Correction(refReal: seq<string>, modReal: seq<string>, level: nat): string {
    var matching := seq(level, i => PartAt(refReal, i));
    [Sep] + Join(matching) + [Sep] + Join(SliceFrom(modReal, level))
  }

  /** The relative path the partial-match branch proposes for `mod` when Oblivion path `i` wins. */
  function PartialCorrection(mod: Path, refs: seq<Path>, i: nat): string
    requires i < |refs|
  {
    Correction(Segments(refs[i].realRelativePath), Segments(mod.realRelativePath), Level(mod, refs[i]))
  }

  /**
   * The body of the worker's `map` callback, step by step: walk the mod's
   * normalized segments while they equal the Oblivion path's, collecting the
   * Oblivion path's real segments, then assemble the corrected relative path.
   */
  method ScoreReference(mod: Path, ref: Path) returns (level: nat, corrected: string)
    ensures level <= |Segments(mod.normalizedRelativePath)| && level <= |Segments(ref.normalizedRelativePath)|
    ensures forall i :: 0 <= i < level ==> Segments(mod.normalizedRelativePath)[i] == Segments(ref.normalizedRelativePath)[i]
    ensures level == Level(mod, ref)
    ensures corrected == Correction(Segments(ref.realRelativePath), Segments(mod.realRelativePath), level)
  {
    var refNorm := Segments(ref.normalizedRelativePath);
    var refReal := Segments(ref.realRelativePath);
    var modNorm := Segments(mod.normalizedRelativePath);
    var modReal := Segments(mod.realRelativePath);
    var matching: seq<string> := [];
    level := 0;
    var i := 0;
    while i < |modNorm|
      invariant 0 <= i <= |modNorm| && i <= |refNorm|
      invariant level == i && |matching| == i
      invariant forall k :: 0 <= k < i ==> modNorm[k] == refNorm[k]
      invariant forall k :: 0 <= k < i ==> matching[k] == PartAt(refReal, k)
    {
      if i < |refNorm| && modNorm[i] == refNorm[i] {
        level := level + 1;
        matching := matching + [PartAt(refReal, i)];
        i := i + 1;
      } else {
        break;
      }
    }
    MatchLevelUnique(modNorm, refNorm, level);
    assert matching == seq(level, k => PartAt(refReal, k));
    corrected := [Sep] + Join(matching) + [Sep] + Join(SliceFrom(modReal, level));
  }

  // ---------------------------------------------------------------------------
  // Choosing the best partial match
  // ---------------------------------------------------------------------------

  /** The match level of every Oblivion path for `mod`, in list order. */
  function Levels(mod: Path, refs: seq<Path>): (ls: seq<nat>)
    ensures |ls| == |refs|
    ensures forall j :: 0 <= j < |refs| ==> ls[j] == Level(mod, refs[j])
  {
    seq(|refs|, j requires 0 <= j < |refs| => Level(mod, refs[j]))
  }

  /**
   * The winner for a list of levels: scanning in list order, a position
   * replaces the current winner only with a strictly higher level, and a
   * level of zero never wins.
   */
  function BestIndex(levels: seq<nat>): (r: Option<nat>)
    ensures r.Some? ==> r.value < |levels| && levels[r.value] > 0
    ensures r.Some? ==> forall j :: 0 <= j < |levels| ==> levels[j] <= levels[r.value]
    ensures r.Some? ==> forall j :: 0 <= j < r.value ==> levels[j] < levels[r.value]
    ensures r.None? <==> forall j :: 0 <= j < |levels| ==> levels[j] == 0
  {
    if |levels| == 0 then None
    else
      var n := |levels| - 1;
      var prev := BestIndex(levels[..n]);
      if levels[n] > 0 && (prev.None? || levels[n] > levels[prev.value]) then Some(n) else prev
  }

  /** The earliest position of maximal positive level, stated without reference to the scan. */
  ghost predicate IsBest(levels: seq<nat>, i: nat) {
    && i < |levels|
    && levels[i] > 0
    && (forall j :: 0 <= j < |levels| ==> levels[j] <= levels[i])
    && (forall j :: 0 <= j < i ==> levels[j] < levels[i])
  }

  /** The scan picks exactly the earliest position of maximal positive level. */
  lemma BestIndexCharacterized(levels: seq<nat>, i: nat)
    ensures BestIndex(levels) == Some(i) <==> IsBest(levels, i)
  {
  }

  /**
   * `sorted` is what the worker's `filter(matchLevel > 0)` followed by a
   * stable sort on descending level yields: the positions of positive level,
   * each present, levels non-increasing, equal levels in list order.
   */
  ghost predicate StableDescending(levels: seq<nat>, sorted: seq<nat>) {
    && (forall k :: 0 <= k < |sorted| ==> sorted[k] < |levels| && levels[sorted[k]] > 0)
    && (forall j :: 0 <= j < |levels| && levels[j] > 0 ==> j in sorted)
    && (forall k, l :: 0 <= k < l < |sorted| ==> levels[sorted[k]] >= levels[sorted[l]])
    && (forall k, l :: 0 <= k < l < |sorted| && levels[sorted[k]] == levels[sorted[l]] ==> sorted[k] < sorted[l])
  }

  /**
   * Whatever stable sort the runtime uses, the head of the filtered, sorted
   * list (`[0]`) is the position `BestIndex` selects, and the list is empty
   * exactly when `BestIndex` finds nothing.
   */
  lemma SortedHeadIsBest(levels: seq<nat>, sorted: seq<nat>)
    requires StableDescending(levels, sorted)
    ensures |sorted| == 0 <==> BestIndex(levels).None?
    ensures |sorted| > 0 ==> BestIndex(levels) == Some(sorted[0])
  {
    if |sorted| == 0 {
    } else {
      var h := sorted[0];
      forall j | 0 <= j < |levels|
        ensures levels[j] <= levels[h]
        ensures j < h ==> levels[j] < levels[h]
      {
        if levels[j] > 0 {
          var l :| 0 <= l < |sorted| && sorted[l] == j;
        }
      }
      BestIndexCharacterized(levels, h);
    }
  }

  /** The index of the Oblivion path whose prefix the correction takes, if any path has a positive level. */
  function BestPartial(mod: Path, refs: seq<Path>): Option<nat> {
    BestIndex(Levels(mod, refs))
  }

  // ---------------------------------------------------------------------------
  // Classification
  // ---------------------------------------------------------------------------

  /** The corrected `Path` both problem branches build under the mod data folder. */
  function CorrectedPath(modRoot: string, rel: string): (p: Path)
    ensures WellFormed(p) && p.realRelativePath == rel
    ensures p.realPath == modRoot + rel
  {
    Path(modRoot + rel, rel, Lower(modRoot + rel), Lower(rel))
  }

  /** The outcome for one mod path: a problem with its correction, or independent. */
  datatype Verdict = Problem(corrected: Path) | Independent

  /**
   * The worker's decision for one mod path as written: `None` when the path
   * is pushed to neither list (an exact match with identical casing).
   */
  function LiteralClassify(mod: Path, refs: seq<Path>, modRoot: string): (r: Option<Verdict>)
    ensures r.None? <==> FirstExact(mod, refs).Some? && refs[FirstExact(mod, refs).value].realRelativePath == mod.realRelativePath
    ensures r == Some(Independent) <==> FirstExact(mod, refs).None? && BestPartial(mod, refs).None?
    ensures r.Some? && r.value.Problem? ==> WellFormed(r.value.corrected) && r.value.corrected.realPath == modRoot + r.value.corrected.realRelativePath
  {
    match FirstExact(mod, refs)
    case Some(i) =>
      if refs[i].realRelativePath != mod.realRelativePath
      then Some(Problem(CorrectedPath(modRoot, refs[i].realRelativePath)))
      else None
    case None =>
      match BestPartial(mod, refs)
      case Some(i) => Some(Problem(CorrectedPath(modRoot, PartialCorrection(mod, refs, i))))
      case None => Some(Independent)
  }

  /**
   * The classification the test suite asserts: a same-case exact match and a
   * correction identical to the existing path are both independent.
   */
  function Classify(mod: Path, refs: seq<Path>, modRoot: string): (v: Verdict)
    ensures v.Problem? ==> WellFormed(v.corrected) && v.corrected.realPath == modRoot + v.corrected.realRelativePath
    ensures v.Problem? ==> v.corrected.realRelativePath != mod.realRelativePath
    ensures FirstExact(mod, refs).Some? ==>
      var i := FirstExact(mod, refs).value;
      && (v.Problem? <==> refs[i].realRelativePath != mod.realRelativePath)
      && (v.Problem? ==> v.corrected.realRelativePath == refs[i].realRelativePath)
    ensures FirstExact(mod, refs).None? && v.Problem? ==>
      var b := BestPartial(mod, refs);
      && b.Some?
      && IsBest(Levels(mod, refs), b.value)
      && v.corrected.realRelativePath == PartialCorrection(mod, refs, b.value)
    ensures FirstExact(mod, refs).None? && (forall j :: 0 <= j < |refs| ==> Level(mod, refs[j]) == 0) ==> v == Independent
    ensures FirstExact(mod, refs).None? && BestPartial(mod, refs).Some? ==>
      var rel := PartialCorrection(mod, refs, BestPartial(mod, refs).value);
      (v.Problem? <==> rel != mod.realRelativePath)
      && (rel != mod.realRelativePath ==> v == Problem(CorrectedPath(modRoot, rel)))
  {
    match FirstExact(mod, refs)
    case Some(i) =>
      if refs[i].realRelativePath != mod.realRelativePath
      then Problem(CorrectedPath(modRoot, refs[i].realRelativePath))
      else Independent
    case None =>
      match BestPartial(mod, refs)
      case Some(i) =>
        var rel := PartialCorrection(mod, refs, i);
        if rel != mod.realRelativePath then Problem(CorrectedPath(modRoot, rel)) else Independent
      case None => Independent
  }

  /** The mod path has an exact match whose casing is already identical. */
  predicate SameCaseExact(mod: Path, refs: seq<Path>) {
    var e := FirstExact(mod, refs);
    e.Some? && refs[e.value].realRelativePath == mod.realRelativePath
  }

  /** The partial-match branch would propose the path the mod file already has. */
  predicate NoOpCorrection(mod: Path, refs: seq<Path>) {
    && FirstExact(mod, refs).None?
    && var b := BestPartial(mod, refs);
    && b.Some?
    && PartialCorrection(mod, refs, b.value) == mod.realRelativePath
  }

  /**
   * The worker as written and the test-asserted behaviour agree on every mod path
   * except the two discrepancies: the worker drops a same-case exact match
   * and reports a no-op correction as a problem.
   */
  lemma LiteralAgreesExceptDiscrepancies(mod: Path, refs: seq<Path>, modRoot: string)
    ensures SameCaseExact(mod, refs) ==> LiteralClassify(mod, refs, modRoot) == None && Classify(mod, refs, modRoot) == Independent
    ensures NoOpCorrection(mod, refs) ==>
      && LiteralClassify(mod, refs, modRoot) == Some(Problem(CorrectedPath(modRoot, mod.realRelativePath)))
      && Classify(mod, refs, modRoot) == Independent
    ensures LiteralClassify(mod, refs, modRoot) == Some(Classify(mod, refs, modRoot))
      <==> !SameCaseExact(mod, refs) && !NoOpCorrection(mod, refs)
  {
  }

  // ---------------------------------------------------------------------------
  // A correction changes letter case only
  // ---------------------------------------------------------------------------

  /** Under well-formed paths, the normalized segments are the lower-cased real ones. */
  lemma NormalizedSegments(p: Path)
    requires WellFormed(p)
    ensures Segments(p.normalizedRelativePath) == LowerAll(Segments(p.realRelativePath))
  {
    SegmentsLower(p.realRelativePath);
  }

  /**
   * When the two lists' first `m` segments agree up to case, the correction
   * lower-cases like the mod path's own segments rejoined around position `m`.
   */
  lemma {:induction false} CorrectionLower(refReal: seq<string>, modReal: seq<string>, m: nat)
    requires m <= |refReal| && m <= |modReal|
    requires LowerAll(refReal[..m]) == LowerAll(modReal[..m])
    ensures Lower(Correction(refReal, modReal, m)) == Lower([Sep] + Join(modReal[..m]) + [Sep] + Join(modReal[m..]))
  {
    var head := seq(m, k => PartAt(refReal, k));
    assert head == refReal[..m];
    JoinLower(head);
    JoinLower(modReal[..m]);
    var tail := Join(modReal[m..]);
    LowerAppend([Sep], Join(head));
    LowerAppend([Sep] + Join(head), [Sep]);
    LowerAppend([Sep] + Join(head) + [Sep], tail);
    LowerAppend([Sep], Join(modReal[..m]));
    LowerAppend([Sep] + Join(modReal[..m]), [Sep]);
    LowerAppend([Sep] + Join(modReal[..m]) + [Sep], tail);
  }

  /** Splitting a segment list at an inner position and rejoining around a separator gives the whole. */
  lemma Rejoin(parts: seq<string>, m: nat)
    requires 0 < m < |parts|
    ensures [Sep] + Join(parts[..m]) + [Sep] + Join(parts[m..]) == [Sep] + Join(parts)
  {
    var a, b := parts[..m], parts[m..];
    assert a + b == parts;
    JoinAppend(a, b);
    SepAssoc(Join(a), Join(b));
  }

  lemma SepAssoc(x: string, y: string)
    ensures [Sep] + x + [Sep] + y == [Sep] + (x + [Sep] + y)
  {
  }

  /**
   * The partial-match correction for a canonical mod path lower-cases to the
   * mod path's normalized relative path, except when every mod segment was
   * matched: the correction then carries one trailing separator.
   */
  lemma PartialCorrectionCaseOnly(mod: Path, refs: seq<Path>, i: nat)
    requires i < |refs| && WellFormed(mod) && WellFormed(refs[i])
    requires Canonical(mod.realRelativePath)
    requires Level(mod, refs[i]) > 0
    ensures Level(mod, refs[i]) < |Segments(mod.realRelativePath)| ==>
      Lower(PartialCorrection(mod, refs, i)) == mod.normalizedRelativePath
    ensures Level(mod, refs[i]) == |Segments(mod.realRelativePath)| ==>
      Lower(PartialCorrection(mod, refs, i)) == mod.normalizedRelativePath + [Sep]
  {
    var modReal := Segments(mod.realRelativePath);
    var refReal := Segments(refs[i].realRelativePath);
    var modNorm := Segments(mod.normalizedRelativePath);
    var refNorm := Segments(refs[i].normalizedRelativePath);
    NormalizedSegments(mod);
    NormalizedSegments(refs[i]);
    var m := Level(mod, refs[i]);
    LowerAllSlice(refReal, 0, m);
    LowerAllSlice(modReal, 0, m);
    assert refNorm[..m] == modNorm[..m];
    CorrectionLower(refReal, modReal, m);
    var rejoined := [Sep] + Join(modReal[..m]) + [Sep] + Join(modReal[m..]);
    if m < |modReal| {
      Rejoin(modReal, m);
    } else {
      assert modReal[..m] == modReal && modReal[m..] == [];
      assert rejoined == mod.realRelativePath + [Sep];
      LowerAppend(mod.realRelativePath, [Sep]);
    }
  }

  /**
   * A problem verdict for a canonical, well-formed mod path only changes
   * letter case: its corrected normalized relative path is the existing one
   * (plus a trailing separator when the mod file is named like an Oblivion
   * directory), and the corrected path is itself well-formed.
   */
  lemma ClassifyChangesCaseOnly(mod: Path, refs: seq<Path>, modRoot: string)
    requires WellFormed(mod) && forall j :: 0 <= j < |refs| ==> WellFormed(refs[j])
    requires Canonical(mod.realRelativePath)
    ensures Classify(mod, refs, modRoot).Problem? ==>
      var c := Classify(mod, refs, modRoot).corrected;
      && WellFormed(c)
      && (c.normalizedRelativePath == mod.normalizedRelativePath
          || c.normalizedRelativePath == mod.normalizedRelativePath + [Sep])
  {
    var v := Classify(mod, refs, modRoot);
    if v.Problem? {
      var c := v.corrected;
      var e := FirstExact(mod, refs);
      if e.Some? {
        var r := refs[e.value];
        assert WellFormed(r);
        assert c.realRelativePath == r.realRelativePath;
      } else {
        var i := BestPartial(mod, refs).value;
        assert Levels(mod, refs)[i] > 0;
        assert c.realRelativePath == PartialCorrection(mod, refs, i);
        NormalizedSegments(mod);
        assert Level(mod, refs[i]) <= |Segments(mod.realRelativePath)|;
        PartialCorrectionCaseOnly(mod, refs, i);
        assert c.normalizedRelativePath == Lower(PartialCorrection(mod, refs, i));
      }
    }
  }

  // ---------------------------------------------------------------------------
  // A whole chunk
  // ---------------------------------------------------------------------------

  /** The single-entry result for one mod path and its verdict. */
  function Entry(mod: Path, v: Verdict): (r: AnalysisResult)
    ensures Count(r) == 1
  {
    match v
    case Problem(c) => AnalysisResult([AnalyzedPath(mod, Some(c))], [])
    case Independent => AnalysisResult([], [AnalyzedPath(mod, None)])
  }

  /** Files each mod path under its verdict, in input order: the pushes of the worker's `forEach`. */
  function Assemble(mods: seq<Path>, verdicts: seq<Verdict>): (r: AnalysisResult)
    requires |verdicts| == |mods|
    ensures Count(r) == |mods|
  {
    if |mods| == 0 then EmptyResult
    else
      var n := |mods| - 1;
      var rest := Assemble(mods[..n], verdicts[..n]);
      match verdicts[n]
      case Problem(c) => AnalysisResult(rest.problemPaths + [AnalyzedPath(mods[n], Some(c))], rest.independentPaths)
      case Independent => AnalysisResult(rest.problemPaths, rest.independentPaths + [AnalyzedPath(mods[n], None)])
  }

  /** The test-asserted verdict of every mod path of a chunk. */
  function Verdicts(mods: seq<Path>, refs: seq<Path>, modRoot: string): (vs: seq<Verdict>)
    ensures |vs| == |mods|
    ensures forall k :: 0 <= k < |mods| ==> vs[k] == Classify(mods[k], refs, modRoot)
  {
    seq(|mods|, k requires 0 <= k < |mods| => Classify(mods[k], refs, modRoot))
  }

  /** The worker's run over its chunk with the test-asserted classification. */
  function ClassifyAll(mods: seq<Path>, refs: seq<Path>, modRoot: string): (r: AnalysisResult)
    ensures Count(r) == |mods|
  {
    Assemble(mods, Verdicts(mods, refs, modRoot))
  }

  /** The worker's `forEach` as written: a dropped path contributes nothing. */
  function LiteralClassifyAll(mods: seq<Path>, refs: seq<Path>, modRoot: string): (r: AnalysisResult)
  {
    if |mods| == 0 then EmptyResult
    else
      var last := mods[|mods| - 1];
      var rest := LiteralClassifyAll(mods[..|mods| - 1], refs, modRoot);
      match LiteralClassify(last, refs, modRoot)
      case Some(v) => Concat(rest, Entry(last, v))
      case None => rest
  }

  /** How many mod paths have a same-case exact match. */
  function SameCaseCount(mods: seq<Path>, refs: seq<Path>): nat {
    if |mods| == 0 then 0
    else SameCaseCount(mods[..|mods| - 1], refs) + (if SameCaseExact(mods[|mods| - 1], refs) then 1 else 0)
  }

  /**
   * The worker as written loses exactly the same-case exact matches, so the
   * completeness check of the caller fails whenever one is present.
   */
  lemma {:induction false} LiteralLosesSameCase(mods: seq<Path>, refs: seq<Path>, modRoot: string)
    ensures Count(LiteralClassifyAll(mods, refs, modRoot)) + SameCaseCount(mods, refs) == |mods|
    ensures SameCaseCount(mods, refs) > 0 ==> Count(LiteralClassifyAll(mods, refs, modRoot)) < |mods|
  {
    if |mods| > 0 {
      LiteralLosesSameCase(mods[..|mods| - 1], refs, modRoot);
      LiteralAgreesExceptDiscrepancies(mods[|mods| - 1], refs, modRoot);
    }
  }

  lemma {:induction false} AssembleAppend(a: seq<Path>, b: seq<Path>, va: seq<Verdict>, vb: seq<Verdict>)
    requires |va| == |a| && |vb| == |b|
    ensures Assemble(a + b, va + vb) == Concat(Assemble(a, va), Assemble(b, vb))
  {
    if |b| == 0 {
      assert a + b == a && va + vb == va;
    } else {
      var n := |b| - 1;
      assert (a + b)[..|a| + n] == a + b[..n];
      assert (va + vb)[..|a| + n] == va + vb[..n];
      AssembleAppend(a, b[..n], va, vb[..n]);
    }
  }

  /** Classifying two consecutive slices and appending the results is classifying their concatenation. */
  lemma ClassifyAllAppend(a: seq<Path>, b: seq<Path>, refs: seq<Path>, modRoot: string)
    ensures ClassifyAll(a + b, refs, modRoot) == Concat(ClassifyAll(a, refs, modRoot), ClassifyAll(b, refs, modRoot))
  {
    assert Verdicts(a + b, refs, modRoot) == Verdicts(a, refs, modRoot) + Verdicts(b, refs, modRoot);
    AssembleAppend(a, b, Verdicts(a, refs, modRoot), Verdicts(b, refs, modRoot));
  }

  /** The mod paths whose verdict is (`problem`) or is not (`!problem`) a problem, in input order. */
  function Select<T>(mods: seq<T>, verdicts: seq<Verdict>, problem: bool): seq<T>
    requires |verdicts| == |mods|
  {
    if |mods| == 0 then []
    else
      var n := |mods| - 1;
      var rest := Select(mods[..n], verdicts[..n], problem);
      if verdicts[n].Problem? == problem then rest + [mods[n]] else rest
  }

  /** Each list holds exactly the mod paths with that verdict, in input order. */
  lemma {:induction false} AssembleSelects(mods: seq<Path>, verdicts: seq<Verdict>)
    requires |verdicts| == |mods|
    ensures Existing(Assemble(mods, verdicts).problemPaths) == Select(mods, verdicts, true)
    ensures Existing(Assemble(mods, verdicts).independentPaths) == Select(mods, verdicts, false)
  {
    if |mods| > 0 {
      var n := |mods| - 1;
      var init, vinit := mods[..n], verdicts[..n];
      AssembleSelects(init, vinit);
      var r0 := Assemble(init, vinit);
      match verdicts[n]
      case Problem(c) =>
        ExistingAppend(r0.problemPaths, [AnalyzedPath(mods[n], Some(c))]);
      case Independent =>
        ExistingAppend(r0.independentPaths, [AnalyzedPath(mods[n], None)]);
    }
  }

  /** The two selections together hold every mod path exactly once. */
  lemma {:induction false} SelectPartition<T>(mods: seq<T>, verdicts: seq<Verdict>)
    requires |verdicts| == |mods|
    ensures multiset(Select(mods, verdicts, true)) + multiset(Select(mods, verdicts, false)) == multiset(mods)
  {
    if |mods| > 0 {
      var n := |mods| - 1;
      var init, vinit, x := mods[..n], verdicts[..n], mods[n];
      SelectPartition(init, vinit);
      var t0, f0 := Select(init, vinit, true), Select(init, vinit, false);
      assert multiset(mods) == multiset(init) + multiset{x} by {
        assert mods == init + [x];
      }
      if verdicts[n].Problem? {
        assert Select(mods, verdicts, true) == t0 + [x];
        assert Select(mods, verdicts, false) == f0;
        MultisetSnoc(t0, x);
      } else {
        assert Select(mods, verdicts, true) == t0;
        assert Select(mods, verdicts, false) == f0 + [x];
        MultisetSnoc(f0, x);
      }
    }
  }

  lemma MultisetSnoc<T>(a: seq<T>, x: T)
    ensures multiset(a + [x]) == multiset(a) + multiset{x}
  {
  }

  /** Each problem entry carries its verdict's correction and no independent entry carries one. */
  lemma {:induction false} AssembleEntries(mods: seq<Path>, verdicts: seq<Verdict>)
    requires |verdicts| == |mods|
    ensures forall e :: e in Assemble(mods, verdicts).problemPaths ==>
      exists k :: 0 <= k < |mods| && mods[k] == e.existingPath && e.correctedPath.Some? && verdicts[k] == Problem(e.correctedPath.value)
    ensures forall e :: e in Assemble(mods, verdicts).independentPaths ==>
      exists k :: 0 <= k < |mods| && mods[k] == e.existingPath && e.correctedPath.None? && verdicts[k] == Independent
  {
    if |mods| > 0 {
      var n := |mods| - 1;
      AssembleEntries(mods[..n], verdicts[..n]);
      var r0 := Assemble(mods[..n], verdicts[..n]);
      forall x | x in r0.problemPaths
        ensures exists k :: 0 <= k < |mods| && mods[k] == x.existingPath && x.correctedPath.Some? && verdicts[k] == Problem(x.correctedPath.value)
      {
        var k :| 0 <= k < n && mods[..n][k] == x.existingPath && x.correctedPath.Some? && verdicts[..n][k] == Problem(x.correctedPath.value);
        assert mods[k] == x.existingPath;
      }
      forall x | x in r0.independentPaths
        ensures exists k :: 0 <= k < |mods| && mods[k] == x.existingPath && x.correctedPath.None? && verdicts[k] == Independent
      {
        var k :| 0 <= k < n && mods[..n][k] == x.existingPath && x.correctedPath.None? && verdicts[..n][k] == Independent;
        assert mods[k] == x.existingPath;
      }
    }
  }

  /**
   * A chunk's result lists exactly the mod paths of each verdict in input
   * order, accounts for every mod path once, and files each problem with the
   * correction `Classify` proposes for it.
   */
  lemma ClassifyAllContents(mods: seq<Path>, refs: seq<Path>, modRoot: string)
    ensures var vs := Verdicts(mods, refs, modRoot);
      && Existing(ClassifyAll(mods, refs, modRoot).problemPaths) == Select(mods, vs, true)
      && Existing(ClassifyAll(mods, refs, modRoot).independentPaths) == Select(mods, vs, false)
      && multiset(Select(mods, vs, true)) + multiset(Select(mods, vs, false)) == multiset(mods)
    ensures forall e :: e in ClassifyAll(mods, refs, modRoot).problemPaths ==>
      e.correctedPath.Some? && Classify(e.existingPath, refs, modRoot) == Problem(e.correctedPath.value)
    ensures forall e :: e in ClassifyAll(mods, refs, modRoot).independentPaths ==>
      e.correctedPath.None? && Classify(e.existingPath, refs, modRoot) == Independent
  {
    AssembleSelects(mods, Verdicts(mods, refs, modRoot));
    SelectPartition(mods, Verdicts(mods, refs, modRoot));
    AssembleEntries(mods, Verdicts(mods, refs, modRoot));
  }
}

=== FILE: model.dfy ===
/**
 * The data shapes shared by the analyzer and its workers (model.ts): a file
 * `Path` seen both case-preserved and lower-cased, the classification of one
 * mod path, and the pair of lists an analysis produces.
 */
module PathModel {
  import opened Wrappers
  import opened Text

  /**
   * One file under a data folder. `realRelativePath` is `realPath` without the
   * data folder and starts with "/"; the two `normalized` fields are the
   * lower-case projections used for every case-insensitive comparison.
   */
  datatype Path = Path(
    realPath: string,
    realRelativePath: string,
    normalizedPath: string,
    normalizedRelativePath: string)

  /** The documented relation between the real and the normalized fields. */
  predicate WellFormed(p: Path) {
    && p.normalizedPath == Lower(p.realPath)
    && p.normalizedRelativePath == Lower(p.realRelativePath)
  }

  /** `p` lies under `root`: its relative path is its real path minus the root, and starts with "/". */
  predicate UnderRoot(p: Path, root: string) {
    && p.realPath == root + p.realRelativePath
    && |p.realRelativePath| > 0
    && p.realRelativePath[0] == Sep
  }

  /**
   * A relative path in the shape a directory walk produces: a separator
   * before each non-empty segment and nothing else ("/Meshes/tail.nif").
   */
  predicate Canonical(rel: string) {
    rel == [Sep] + Join(Segments(rel))
  }

  /** The outcome for one mod path; `correctedPath` is present only for a problem. */
  datatype AnalyzedPath = AnalyzedPath(existingPath: Path, correctedPath: Option<Path>)

  /** The result of an analysis: paths needing a correction, and paths left as they are. */
  datatype AnalysisResult = AnalysisResult(
    problemPaths: seq<AnalyzedPath>,
    independentPaths: seq<AnalyzedPath>)

  const EmptyResult := AnalysisResult([], [])

  /** Number of mod paths a result accounts for. */
  function Count(r: AnalysisResult): nat {
    |r.problemPaths| + |r.independentPaths|
  }

  /** Appends the lists of `b` after those of `a` (`push(...)` of a partial result). */
  function Concat(a: AnalysisResult, b: AnalysisResult): (r: AnalysisResult)
    ensures Count(r) == Count(a) + Count(b)
  {
    AnalysisResult(a.problemPaths + b.problemPaths, a.independentPaths + b.independentPaths)
  }

  /** The `existingPath` of every entry, in order. */
  function Existing(entries: seq<AnalyzedPath>): (r: seq<Path>)
    ensures |r| == |entries|
    ensures forall k :: 0 <= k < |entries| ==> r[k] == entries[k].existingPath
  {
    seq(|entries|, k requires 0 <= k < |entries| => entries[k].existingPath)
  }

  lemma ExistingAppend(a: seq<AnalyzedPath>, b: seq<AnalyzedPath>)
    ensures Existing(a + b) == Existing(a) + Existing(b)
  {
  }
}

=== FILE: text.dfy ===
/**
 * The JavaScript string primitives the path logic is built from, as pure
 * functions on `seq<char>`: `toLowerCase` (ASCII only), `split('/')`,
 * `filter(Boolean)`, `join('/')`, `trim()`, `startsWith` and the first-match
 * `replace(string, '')`.
 */
module Text {
  import opened Wrappers

  /** The path separator the source splits and joins on. */
  const Sep: char := '/'

  // ---------------------------------------------------------------------------
  // Lower-casing
  // ---------------------------------------------------------------------------

  /** Lower-cases an ASCII capital and keeps every other character. */
  function LowerChar(c: char): char {
    if 'A' <= c <= 'Z' then (c as int + 32) as char else c
  }

  lemma LowerCharSep(c: char)
    ensures LowerChar(c) == Sep <==> c == Sep
  {
  }

  /** `s.toLowerCase()`, character by character. */
  function Lower(s: string): (r: string)
    ensures |r| == |s|
    ensures forall i :: 0 <= i < |s| ==> r[i] == LowerChar(s[i])
  {
    if |s| == 0 then [] else [LowerChar(s[0])] + Lower(s[1..])
  }

  lemma LowerAppend(a: string, b: string)
    ensures Lower(a + b) == Lower(a) + Lower(b)
  {
  }

  /** Lower-casing every element of a list of segments. */
  function LowerAll(parts: seq<string>): (r: seq<string>)
    ensures |r| == |parts|
    ensures forall k :: 0 <= k < |parts| ==> r[k] == Lower(parts[k])
  {
    seq(|parts|, k requires 0 <= k < |parts| => Lower(parts[k]))
  }

  lemma LowerAllSlice(parts: seq<string>, i: nat, j: nat)
    requires i <= j <= |parts|
    ensures LowerAll(parts[i..j]) == LowerAll(parts)[i..j]
  {
  }

  // ---------------------------------------------------------------------------
  // split('/'), filter(Boolean), join('/')
  // ---------------------------------------------------------------------------

  /** `s.split('/')`: the pieces between separators, empty pieces included. */
  function Split(s: string): (r: seq<string>)
    ensures |r| >= 1
    ensures forall k :: 0 <= k < |r| ==> Sep !in r[k]
  {
    if |s| == 0 then [""]
    else if s[0] == Sep then [""] + Split(s[1..])
    else
      var t := Split(s[1..]);
      [[s[0]] + t[0]] + t[1..]
  }

  /** `parts.join('/')`. */
  function Join(parts: seq<string>): string
  {
    if |parts| == 0 then ""
    else if |parts| == 1 then parts[0]
    else parts[0] + [Sep] + Join(parts[1..])
  }

  /** Joining the pieces of a split gives back the string. */
  lemma {:induction false} JoinSplit(s: string)
    ensures Join(Split(s)) == s
  {
    if |s| == 0 {
    } else if s[0] == Sep {
      JoinSplit(s[1..]);
      assert s == [Sep] + s[1..];
    } else {
      JoinSplit(s[1..]);
      var t := Split(s[1..]);
      if |t| == 1 {
        assert s == [s[0]] + s[1..];
      } else {
        assert t == [t[0]] + t[1..];
        assert Join(t) == t[0] + [Sep] + Join(t[1..]);
        assert ([[s[0]] + t[0]] + t[1..])[1..] == t[1..];
        assert s == [s[0]] + s[1..];
      }
    }
  }

  lemma {:induction false} JoinAppend(a: seq<string>, b: seq<string>)
    requires |a| >= 1 && |b| >= 1
    ensures Join(a + b) == Join(a) + [Sep] + Join(b)
  {
    if |a| == 1 {
      assert (a + b)[1..] == b;
    } else {
      JoinAppend(a[1..], b);
      assert (a + b)[1..] == a[1..] + b;
    }
  }

  lemma {:induction false} JoinLower(parts: seq<string>)
    ensures Lower(Join(parts)) == Join(LowerAll(parts))
  {
    if |parts| >= 2 {
      JoinLower(parts[1..]);
      LowerAppend(parts[0], [Sep]);
      LowerAppend(parts[0] + [Sep], Join(parts[1..]));
      assert LowerAll(parts)[1..] == LowerAll(parts[1..]);
    }
  }

  /** `filter(Boolean)` on a list of strings: drops the empty ones. */
  function NonEmpty(parts: seq<string>): (r: seq<string>)
    ensures |r| <= |parts|
    ensures forall k :: 0 <= k < |r| ==> r[k] != ""
  {
    if |parts| == 0 then []
    else if parts[0] == "" then NonEmpty(parts[1..])
    else [parts[0]] + NonEmpty(parts[1..])
  }

  /** `s.split('/').filter(Boolean)`: the path segments of `s`. */
  function Segments(s: string): seq<string>
  {
    NonEmpty(Split(s))
  }

  /** The first piece of a split grows by a non-separator character; the rest stay. */
  lemma SplitCons(c: char, s: string)
    requires c != Sep
    ensures Split([c] + s) == [[c] + Split(s)[0]] + Split(s)[1..]
  {
    assert ([c] + s)[1..] == s;
  }

  lemma LowerAllCons(head: string, tail: seq<string>)
    ensures LowerAll([head] + tail) == [Lower(head)] + LowerAll(tail)
  {
  }

  lemma {:induction false} SplitLower(s: string)
    ensures Split(Lower(s)) == LowerAll(Split(s))
  {
    if |s| > 0 {
      var c := s[0];
      var rest := s[1..];
      SplitLower(rest);
      LowerCharSep(c);
      assert s == [c] + rest;
      LowerAppend([c], rest);
      if c == Sep {
        assert Split(Lower(s)) == [""] + Split(Lower(rest)) by {
          assert Lower(s)[1..] == Lower(rest);
        }
        LowerAllCons("", Split(rest));
      } else {
        var t := Split(rest);
        SplitCons(LowerChar(c), Lower(rest));
        LowerAppend([c], t[0]);
        LowerAllCons([c] + t[0], t[1..]);
        assert LowerAll(t)[1..] == LowerAll(t[1..]);
      }
    }
  }

  lemma {:induction false} NonEmptyLower(parts: seq<string>)
    ensures NonEmpty(LowerAll(parts)) == LowerAll(NonEmpty(parts))
  {
    if |parts| > 0 {
      NonEmptyLower(parts[1..]);
      assert LowerAll(parts)[1..] == LowerAll(parts[1..]);
      if parts[0] != "" {
        assert LowerAll([parts[0]] + NonEmpty(parts[1..])) == [Lower(parts[0])] + LowerAll(NonEmpty(parts[1..]));
      }
    }
  }

  /** Lower-casing a path lower-cases its segments and keeps their number. */
  lemma SegmentsLower(s: string)
    ensures Segments(Lower(s)) == LowerAll(Segments(s))
    ensures |Segments(Lower(s))| == |Segments(s)|
  {
    SplitLower(s);
    NonEmptyLower(Split(s));
  }

  // ---------------------------------------------------------------------------
  // trim(), startsWith, replace(string, '')
  // ---------------------------------------------------------------------------

  /** The characters JavaScript's `trim()` removes: WhiteSpace and LineTerminator. */
  predicate IsJsWhitespace(c: char) {
    || c == '\U{0009}' || c == '\U{000A}' || c == '\U{000B}' || c == '\U{000C}' || c == '\U{000D}'
    || c == ' ' || c == '\U{00A0}' || c == '\U{1680}'
    || ('\U{2000}' <= c <= '\U{200A}')
    || c == '\U{2028}' || c == '\U{2029}' || c == '\U{202F}' || c == '\U{205F}'
    || c == '\U{3000}' || c == '\U{FEFF}'
  }

  function TrimStart(s: string): (r: string)
    ensures |r| <= |s| && r == s[|s| - |r|..]
    ensures |r| > 0 ==> !IsJsWhitespace(r[0])
    ensures forall i :: 0 <= i < |s| - |r| ==> IsJsWhitespace(s[i])
  {
    if |s| > 0 && IsJsWhitespace(s[0]) then TrimStart(s[1..]) else s
  }

  function TrimEnd(s: string): (r: string)
    ensures |r| <= |s| && r == s[..|r|]
    ensures |r| > 0 ==> !IsJsWhitespace(r[|r| - 1])
    ensures forall i :: |r| <= i < |s| ==> IsJsWhitespace(s[i])
  {
    if |s| > 0 && IsJsWhitespace(s[|s| - 1]) then TrimEnd(s[..|s| - 1]) else s
  }

  /** `s.trim()`. */
  function Trim(s: string): string
  {
    TrimEnd(TrimStart(s))
  }

  predicate AllWhitespace(s: string) {
    forall i :: 0 <= i < |s| ==> IsJsWhitespace(s[i])
  }

  lemma {:induction false} TrimStartPadded(pre: string, rest: string)
    requires AllWhitespace(pre)
    requires |rest| == 0 || !IsJsWhitespace(rest[0])
    ensures TrimStart(pre + rest) == rest
  {
    if |pre| > 0 {
      assert (pre + rest)[1..] == pre[1..] + rest;
      TrimStartPadded(pre[1..], rest);
    } else {
      assert pre + rest == rest;
    }
  }

  lemma {:induction false} TrimEndPadded(rest: string, post: string)
    requires AllWhitespace(post)
    requires |rest| == 0 || !IsJsWhitespace(rest[|rest| - 1])
    ensures TrimEnd(rest + post) == rest
  {
    if |post| > 0 {
      assert (rest + post)[..|rest + post| - 1] == rest + post[..|post| - 1];
      TrimEndPadded(rest, post[..|post| - 1]);
    } else {
      assert rest + post == rest;
    }
  }

  /**
   * `trim()` removes exactly the surrounding whitespace: a core that neither
   * starts nor ends with whitespace is recovered from any padding.
   */
  lemma TrimPadded(pre: string, core: string, post: string)
    requires AllWhitespace(pre) && AllWhitespace(post)
    requires |core| > 0 && !IsJsWhitespace(core[0]) && !IsJsWhitespace(core[|core| - 1])
    ensures Trim(pre + core + post) == core
  {
    assert pre + core + post == pre + (core + post);
    TrimStartPadded(pre, core + post);
    TrimEndPadded(core, post);
  }

  predicate StartsWith(s: string, prefix: string) {
    |prefix| <= |s| && s[..|prefix|] == prefix
  }

  /** `s.indexOf(pat)`: the first position where `pat` occurs, if any. */
  function IndexOf(s: string, pat: string, from: nat := 0): (r: Option<nat>)
    requires from <= |s|
    ensures r.Some? ==> from <= r.value && r.value + |pat| <= |s| && s[r.value..r.value + |pat|] == pat
    ensures r.Some? ==> forall k :: from <= k < r.value ==> !StartsWith(s[k..], pat)
    ensures r.None? ==> forall k :: from <= k <= |s| ==> !StartsWith(s[k..], pat)
    decreases |s| - from
  {
    if StartsWith(s[from..], pat) then Some(from)
    else if from == |s| then None
    else IndexOf(s, pat, from + 1)
  }

  /** `s.replace(pat, '')`: removes the first occurrence of `pat`, if any. */
  function RemoveFirst(s: string, pat: string): string
  {
    match IndexOf(s, pat)
    case None => s
    case Some(i) => s[..i] + s[i + |pat|..]
  }

  /** When `s` starts with `pat`, the first occurrence is the prefix itself. */
  lemma RemoveFirstPrefix(s: string, pat: string)
    requires StartsWith(s, pat)
    ensures RemoveFirst(s, pat) == s[|pat|..]
  {
    assert s[0..] == s;
  }

  lemma LowerPrefix(s: string, pat: string)
    requires StartsWith(s, pat)
    ensures StartsWith(Lower(s), Lower(pat))
    ensures Lower(s)[|pat|..] == Lower(s[|pat|..])
  {
    assert s == s[..|pat|] + s[|pat|..];
    LowerAppend(s[..|pat|], s[|pat|..]);
  }
}

=== FILE: wrappers.dfy ===
/** The optional-value datatype the model uses for JavaScript's `undefined`. */
module Wrappers {

  /** `None` stands for a value the source leaves `undefined`. */
  datatype Option<+T> = None | Some(value: T) {

    /** Returns the value held in `Some`, or `default` when there is none. */
    function GetOr(default: T): T {
      match this
      case Some(v) => v
      case None => default
    }
  }
}
